=== FILE: README.md ===
# go-jupyter kernel core, in Dafny

A model of the deterministic core of the go-jupyter kernel, a Jupyter kernel written in Go. Five parts are modelled:

- **The special-command preprocessor** (kernel.go).
  - Before a cell reaches the interpreter, its leading `%cd`/`%help` directives and `$`/`!` shell escapes are run.
  - Those lines are replaced by empty lines.
  - Processing stops at the first line of ordinary code.
- **Evaluation** (eval.go).
  - `doEval` runs the preprocessor and hands the filtered cell to the interpreter.
  - Any panic on the way becomes an error value.
- **Message handling** (kernel.go).
  - `handleShellMsg` publishes `busy`, routes on the message type and answers the request.
  - Its deferred call then publishes `idle`.
  - The state carried between messages is the execution counter.
  - The receive loop threads that counter through the messages in order.
- **The completion reply** (complete.go).
- **The MIME data builders** (display.go).
  - `autoRenderResults`, `render`/`Any`/`Auto`, `fillDefaults`, `makeDataErr`, `MakeData`, `MakeData3`, `Latex`, `Math`, `MIME` and the named wrappers.

Everything outside the kernel is an input, not something the model runs:

- the interpreter's `Eval` and `CompleteWords`
- the operating system (`os.UserHomeDir`, `os.Chdir`, `exec.Command`, and `os.ReadFile` for `File`)
- whether the standard streams could be redirected and whether a reply got through
- the formatting calls of `fmt` and `http.DetectContentType`

Each of these is a value of a function type, or a flag. What the kernel publishes and replies is an ordered list of `Event`s.

Files, one module each:

| file | module | models |
|---|---|---|
| base.dfy | Base | `Option`, bytes |
| gostrings.dfy | GoStrings | `strings.Split`, `Join`, `TrimSpace`, `Trim`, `Fields`, `SplitN(…, 2)` |
| values.dfy | Values | Go `interface{}` values, `Data`, errors, the formatting calls, type assertions on request content |
| display.dfy | Display | the MIME data builders |
| special.dfy | Special | `evalSpecialCommands`, `evalSpecialCommand`, `evalShellCommand` |
| eval.dfy | Evaluation | `doEval` |
| completion.dfy | Completion | `handleCompleteRequest`'s reply content |
| kernel.dfy | Kernel | `handleShellMsg` and the request handlers |
| session.dfy | Session | the receive loop, as a fold over decoded messages |

Four behaviours of the code that shape the model:

- **Idle is not always published.** A reply failure ends the process through `log.Fatal`, and `handleShutdownRequest` ends it through `os.Exit(0)`. Neither runs deferred calls, so no `idle` follows `busy` in those cases. When a type assertion on the request content panics, the deferred `idle` is published and the panic then ends the process.
- **The reply comes before `idle`.** Each handler sends its reply itself, and `idle` is published by the deferred call after the handler returns. So the reply is sent before `idle`.
- **A handler error is fatal.** Every handler error passes to `log.Fatal` (kernel.go:288-302), so it does not let the loop go on.
- **`fillDefaults` can leave `text/plain` out.** See the finding below.

## Model

| member | source | states |
|---|---|---|
| GoStrings.Split | kernel.go:536 | splitting a cell on `'\n'` yields at least one piece, and no piece holds a newline |
| GoStrings.JoinSplit | kernel.go:536-558 | joining the pieces of a split with the separator gives back the original text |
| GoStrings.SplitJoin | kernel.go:536-558 | splitting a join of newline-free pieces gives back those pieces, so the filter's line count survives the round trip |
| GoStrings.SpaceCharacters | kernel.go:539 | white space, as `unicode.IsSpace` has it: among ASCII exactly tab, newline, vertical tab, form feed, carriage return and space; in the rest of Latin-1 exactly U+0085 and U+00A0 |
| GoStrings.JoinShape | kernel.go:558 | joining nothing gives `""`; a join starts with the first piece, ends with the last, and puts the separator right after the first piece when there are two or more |
| GoStrings.TrimSpace | kernel.go:539 | the trimmed line is a slice of the line with only white space cut off on either side, and it neither starts nor ends with white space |
| GoStrings.Trim | display.go:198 | the result is a slice of the input with only `$` signs removed on either side, and it neither starts nor ends with `$` |
| GoStrings.Fields | kernel.go:601 | every field is a non-empty run of non-space characters; there are no fields exactly when the text is all white space; the fields, concatenated in order, are the text's non-space characters; the first field is the first word after leading white space |
| GoStrings.FieldsSpaces | kernel.go:601 | white space in front of a text does not change its fields |
| GoStrings.FieldsAfterWord | kernel.go:601 | a word followed by white space or by nothing is the first field, and the remaining fields are those of what follows it |
| GoStrings.FieldsSpread | kernel.go:601 | words laid out with any white-space gaps (any run at the two ends, a non-empty run between two words) split back into exactly those words |
| GoStrings.FieldsJoin | kernel.go:601 | splitting a single-space join of words into fields gives back those words |
| GoStrings.Cut | kernel.go:573-578 | the command is the text before the first space and holds no space; the argument, if any, is everything after that space |
| GoStrings.CutAt | kernel.go:573-578 | the split happens at the first space, wherever it is |
| Values.StringField | kernel.go:343-344 | reading a string field succeeds exactly when the content is a map holding a string under that key, and yields that string |
| Values.BoolField | kernel.go:362 | reading a bool field succeeds exactly when the content is a map holding a bool under that key |
| Values.NumberField | complete.go:18 | reading a number field succeeds exactly when the content is a map holding a JSON number under that key |
| Values.TruncateToInt | complete.go:18 | `int(x)` truncates toward zero: the result is within one of `x`, on the side of zero |
| Display.AutoRenderResults | display.go:41-48 | the first returned value that is a `Data` is shown; with none, `Data{}` |
| Display.MakeDataErr | display.go:132-141 | exactly four keys: ename `"ERROR"`, evalue the message, a nil traceback, status `"error"` |
| Display.CanAutoRender | display.go:62-64 | every value can be auto-rendered |
| Display.AutoRender | display.go:67-74 | a `Data` value is returned unchanged; any other value yields `Data{}` |
| Display.FillDefaultsAsWritten | display.go:76-104 | as written: an error yields exactly `makeDataErr`; a non-empty text is stored under a non-empty MIME type; the plain-text default is applied only when the map already holds `""` under `text/plain`, so with that key missing and no text for it none is added; bytes are stored under their detected type; an existing non-empty `text/plain` entry is kept unless the text itself goes there; the MIME type's key is touched only when there is text for it or the bytes go there, and every other key is kept unchanged |
| Display.FillDefaultsAsWrittenDropsPlainText | display.go:88-93 | rendering an arbitrary value with no text and no bytes leaves `text/plain` out of the map |
| Display.FillDefaults | display.go:76-104 | an error yields exactly `makeDataErr`; otherwise metadata is kept, `text/plain` is always present and defaults to the text or the formatted value, text is stored under its MIME type, bytes are stored under their detected type and never replace `text/plain`, an existing non-empty `text/plain` entry is kept unless the text itself goes there, the MIME type's key is touched only when there is text for it or the bytes go there, and every other key is kept unchanged |
| Display.RenderFallbackAsWritten | display.go:112-129 | as written, only strings and byte slices render; bytes, or a string under a MIME type other than `text/plain`, get no `text/plain` entry; a non-empty string under a non-empty MIME type gives a map with that single key |
| Display.RenderFallback | display.go:112-129 | only strings and byte slices render, and, with `fillDefaults` corrected, always with a `text/plain` entry; any other value panics |
| Display.RenderFallbackDiverges | display.go:88-93 | for a string under an empty MIME type, the fallback as written returns an empty map while the corrected one stores the string under `text/plain` |
| Display.Render | display.go:107-111 | since every value is auto-renderable, `render` never panics: a `Data` comes back unchanged, anything else as `Data{}` |
| Display.Any | display.go:143-145 | `Any` returns its argument if it is a `Data`, else `Data{}` |
| Display.Auto | display.go:148-150 | `Auto` returns its argument if it is a `Data`, else `Data{}` |
| Display.File | display.go:173-179 | a read failure panics with that error; read bytes render as `Data{}` |
| Display.MakeData | display.go:152-162 | the value is stored under its MIME type, and its formatted form under `text/plain` unless that is the type, which leaves a single key |
| Display.MakeData3 | display.go:164-171 | exactly the keys `text/plain` and the MIME type; the value wins when the type is `text/plain` |
| Display.Enclose | display.go:198 | the delimiters surround the source trimmed of `$`, whose first and last characters are not `$` |
| Display.Latex | display.go:197-199 | `text/plain` holds the source and `text/latex` the `$`-trimmed source inside single `$` |
| Display.Math | display.go:205-207 | the same keys and `text/plain` as `Latex`; `text/latex` is `Latex`'s TeX with one more `$` on each side, so the trimmed source sits inside `$$` |
| Display.WrappersStoreUnderTheirType | display.go:181-219 | `HTML`, `JavaScript`, `JPEG`, `JSON`, `Markdown`, `PDF`, `PNG` and `SVG` store their argument under their own type and its formatted form under `text/plain`, and nothing else |
| Display.MIME | display.go:228-230 | data and metadata are stored unchanged, with a nil transient part |
| Special.CutDirectiveForms | kernel.go:573-578 | `%cd`/`%help` alone have no argument; `%cd x`/`%help x` split into the command and the rest of the line |
| Special.ParseDirective | kernel.go:573-596 | `%cd` with no argument targets the home directory, `%cd p` targets `p`, `%help` with or without argument shows help, and any other `%` line is unknown |
| Special.ParseShell | kernel.go:601-604 | a shell escape does nothing exactly when the rest of the line is white space; otherwise its arguments are the fields of the rest of the line |
| Special.ShellArgsSkipRuns | kernel.go:601-604 | `$ ls  -l` followed by a tab runs `ls` with the single argument `-l`: runs of spaces and tabs separate arguments like one space |
| Special.LeadingCharIsTrimmedHead | kernel.go:539-541 | the first non-space character of a line is the first character of the trimmed line, and a line is empty once trimmed exactly when it has none |
| Special.StopIndex | kernel.go:548-556 | processing stops at the first ordinary line: every line before it is blank or special |
| Special.FilterLines | kernel.go:538-557 | the line count is kept; before the stop line, special lines become `""` and blank lines stay; from the stop line on, every line is unchanged |
| Special.FilterKeepsLines | kernel.go:536-558 | the filtered text splits into exactly the filtered lines, as many as the cell had |
| Special.FilterLinesIdempotent | kernel.go:538-557 | filtering filtered lines changes nothing |
| Special.FilterIdempotent | kernel.go:536-558 | filtering the filtered text gives the same text |
| Special.FilterUnchangedIff | kernel.go:536-558 | the filter leaves a cell unchanged exactly when no special line comes before the first ordinary line |
| Special.ChangeDirTo | kernel.go:588-591 | changing directory succeeds exactly when `os.Chdir` does, and then records one directory change |
| Special.RunCommand | kernel.go:579-641 | `%help` writes the help text; `%cd` is exactly `ChangeDirTo` its target; an empty shell escape does nothing; an unknown directive fails; `%cd` without home directory fails; a shell command succeeds exactly when it runs to completion, and records that it was spawned exactly when it started and was waited for; at most one effect per command |
| Special.EvalSpecialLines | kernel.go:537-557 | the line-by-line loop returns as many lines as it was given when it finishes, and causes at most one effect per line |
| Special.EvalSpecialLinesIsFilterThenRun | kernel.go:535-559 | running each special line as it is met gives the same cell and effects as filtering first and then running the found commands in line order until the first failure |
| Special.EvalSpecialCommands | kernel.go:535-559 | the cell comes back filtered exactly when no command failed; the effects are those of the commands in line order; a failure carries that command's error |
| Special.HelpCellWritesHelp | kernel.go:592-593 | a cell holding only `%help` writes the help text and leaves an empty cell |
| Evaluation.Recover | eval.go:20-27 | a panic with an `error` is returned as that error; any other panic becomes an error whose message is the formatted value |
| Evaluation.DoEval | eval.go:17-39 | the interpreter sees the filtered cell, never the raw one; its values and error come back unchanged; its panic comes back as an error with no values; a failing special command means the interpreter is not called and the result is that command's error with no values |
| Evaluation.UnknownDirectiveSkipsInterpreter | eval.go:20-32 | a cell starting with an unknown `%` directive never reaches the interpreter and yields the "unknown special command" error with the help text |
| Evaluation.PlainCellReachesInterpreter | eval.go:29-32 | a cell without special lines reaches the interpreter unchanged and causes no effects |
| Completion.ParseCompleteRequest | complete.go:16-18 | the code and the cursor position are read unchanged, the cursor truncated to an integer; a missing or mistyped field panics |
| Completion.CompleteReplyContent | complete.go:24-36 | the reply always has status `"error"`, ename `"ERROR"`, evalue `"no completions found"` and a nil traceback |
| Completion.CompleteReplyIgnoresMatches | complete.go:31-43 | the reply content is the same whatever the matches |
| Completion.CompleteReplyIsDataErr | complete.go:24-36 | the reply content is the error payload `makeDataErr` builds for "no completions found" |
| Kernel.StateName | kernel.go:92-96 | the three kernel states go on the wire as `starting`, `busy` and `idle` |
| Kernel.CheckComplete | kernel.go:316-317 | every code is complete and needs no indent |
| Kernel.SendReply | kernel.go:286-302 | a sent reply lets handling go on; a failed reply is fatal and sends nothing |
| Kernel.HandleKernelInfo | kernel.go:287-290 | the counter is unchanged; a sent reply is exactly one `kernel_info_reply` carrying the kernel's info and handling goes on; a failed reply sends nothing and is fatal |
| Kernel.HandleIsComplete | kernel.go:340-353 | a request with a string `code` gets `is_complete_reply` with status `complete` and empty indent; otherwise the handler panics |
| Kernel.HandleComplete | complete.go:14-46 | a well-formed request gets one `complete_reply` holding the "no completions found" error payload; a malformed one panics |
| Kernel.HandleShutdown | kernel.go:456-470 | the reply's `restart` echoes the request's, then the process exits with status 0; a malformed request panics; a failed reply is fatal |
| Kernel.ParseExecuteRequest | kernel.go:360-362 | the request is usable exactly when `code` is a string and `silent` a bool |
| Kernel.ExecuteReplyContent | kernel.go:368-449 | `execution_count` is the new counter; on success status `ok` and empty `user_expressions`; on error exactly the `makeDataErr` payload plus `execution_count` |
| Kernel.Published | kernel.go:427-449 | an error publishes exactly one `error` event with the message as evalue and sole traceback line; a success publishes an `execute_result` exactly when the request is not silent and the rendered data map is non-empty |
| Kernel.Conclude | kernel.go:415-452 | after evaluation, at most three events: the output first; then exactly one error event on failure, or the result when the cell is not silent and the result is non-empty, whether or not the reply goes through; the `execute_reply` with the count last when the reply goes through, and no reply at all when it fails, which is fatal |
| Kernel.HandleExecute | kernel.go:357-453 | the counter grows by one unless silent; `execute_input` carries the new count first; if the streams cannot be redirected the process stops there; otherwise the cell's output comes next, and handling goes on exactly when the reply goes through |
| Kernel.KindOfMsg | kernel.go:286-307 | each of the five request types is recognised by its exact name; every other name is unhandled |
| Kernel.Route | kernel.go:284-307 | the counter moves only for a well-formed, non-silent `execute_request`; handlers publish no status; an unhandled type does nothing |
| Kernel.HandleShellMsg | kernel.go:272-308 | `busy` is first; the only other status is a final `idle`, present exactly when the handler returned or panicked; an unknown type yields exactly `busy`, `idle` |
| Kernel.ConcludeOrder | kernel.go:427-452 | output first, then at most one result or error, published whether or not the reply goes through, then the reply carrying the count when it is sent |
| Kernel.ExecuteReplyFails | kernel.go:364-452 | when the reply fails, `busy`, `execute_input`, the output and the result or error are still published, then the process stops without `idle` |
| Kernel.ExecuteEventOrder | kernel.go:364-452 | a served `execute_request` yields `busy`, `execute_input`, output, result or error, the reply, `idle`, in that order |
| Kernel.ExecuteWithoutPipes | kernel.go:377-391 | if the streams cannot be redirected, only `busy` and `execute_input` are published and the process stops, without `idle` |
| Kernel.MalformedRequestCrashes | kernel.go:278-282 | a request whose content fails a type assertion gets `busy` and `idle`, no reply, no counter change, and the process crashes |
| Kernel.ReplyOnce | kernel.go:286-307 | every answered request gets exactly one reply, of the matching type, unless the handler crashed or the reply failed; other types get none |
| Kernel.RouteReplies | kernel.go:286-307 | a handler's only reply is its last event |
| Kernel.ExecuteReplies | kernel.go:451-452 | `handleExecuteRequest` replies once, last, with `execute_reply` |
| Session.Serve | kernel.go:164-200 | a non-empty inbox handles at least one message; the loop stops early only after a message that ends the process; nothing handled means nothing changed |
| Session.ServeReplays | kernel.go:164-200 | the loop's counter, events and outcome are those of replaying the handled messages one after another (the reference `Replay`), and every handled message but the last let the loop go on |
| Session.ServeCounter | kernel.go:164-200 | for a handler that counts executions, the loop's counter is the start plus the counted executions among the handled messages |
| Session.ServeStatuses | kernel.go:164-200 | for a handler that brackets its events, the loop's statuses are `busy`, `idle` repeated, with a last `busy` left open only when the process ended without `idle` |
| Session.RunKernel | kernel.go:164-200 | every message goes to `handleShellMsg`, so a run over a non-empty inbox handles a message and starts with `busy` |
| Session.FreshKernelCounter | kernel.go:20-21 | a kernel started with the counter at Go's zero value counts exactly the handled executions |
| Session.RunKernelCounter | kernel.go:364-366 | over any run, the counter grows by exactly the number of handled, well-formed, non-silent `execute_request`s |
| Session.RunKernelStatuses | kernel.go:275-282 | over any run, `busy` and `idle` strictly alternate, so no two requests' statuses interleave |
| Session.UnknownMessagePassesThrough | kernel.go:305-306 | a message of an unknown type adds `busy`, `idle` and changes nothing else |

## Left out

- Sockets, binding, signing: `prepareSockets`, the heartbeat, `RunWithSocket` locking, the polling goroutines and the `select` loop are network input/output and concurrency. `Session.Serve` takes the decoded messages in the order the loop picks them.
- Receive and decode errors in the loop (kernel.go:169-178, 187-196): the wire codec and `msgReceipt` are not part of this model. A shell receive error is skipped there, and a control receive error or a decode error ends the loop.
- Publishing and replying: `Publish*` and `Reply` are not part of this model. A publishing error is only logged, so every published event appears in the trace. Whether a reply got through is an input (`World.replySent`).
- Stream output: the redirection of the standard streams through `os.Pipe`, the `io.Copy` forwarders and their wait group are process-wide state and threads. What the cell prints is one `Output` event holding the special commands' effects. The interpreter's own printing is not modelled.
- The effects of special commands: `os.UserHomeDir`, `os.Chdir` and `exec.Command` are answered by the stateless `Os` input. A `%cd` does not change what later commands see, and a spawned command's output is not modelled.
- Formatting: `fmt.Sprint`, the `%q` and `%T` verbs, and `http.DetectContentType` are uninterpreted functions (`Foreign`). The `%v` of an operating-system error is taken to be the given cause text.
- `anyToString` (display.go:50-59) is unused by the rest of the code.
- Display.RenderFallback: it is built on the corrected `fillDefaults`, so it does not do what display.go:112-129 does for an empty or missing `text/plain`; `Display.RenderFallbackAsWritten` models the code as written. The `io.Reader` and `io.WriterTo` cases of `render` (display.go:120-125) are not modelled. Values of those types panic there in the model, because `Value` has no readers. The whole branch is unreachable, since `canAutoRender` always holds.
- Nil versus empty maps: Go distinguishes a nil `MIMEMap` from an empty one (display.go:80-82); the model does not.
- Evaluation.Recover: `panic(nil)` is not singled out. The model turns it into an error holding the formatted nil. Go 1.21 and later produce a `*runtime.PanicNilError` instead, and earlier versions produce no error at all.
- Values.TruncateToInt: does not model `int(x)` for a `float64` outside the range of `int`, nor NaN or infinities, because `real` has none.
- Kernel.HandleExecute: the execution counter is an unbounded integer; the 64-bit wrap-around of Go's `int` is not modelled.
- Strings are sequences of Unicode code points, not bytes. Invalid UTF-8 is not modelled.
- GoStrings.Split: only single-character separators are modelled, which is all kernel.go uses.
- Panics of the interpreter's `CompleteWords`, and what `Eval` does internally, belong to the interpreter, which is an input.
- Logging output (`log.Println`, `log.Printf`) is not modelled.
- main.go and main/main.go, the command-line bootstrap, are not modelled.

## Findings

| source | as written | input that shows it | evidently intended | confidence | as-written member | corrected member |
|---|---|---|---|---|---|---|
| display.go:88-93 | `data.Data[MIMETypeText] == ""` compares an `interface{}` with `""`. A missing key reads as a nil interface, which is not equal to `""`, so the plain-text default is only applied when the map already holds an empty string. The only caller is `render`'s fallback, which cannot be reached while `canAutoRender` always holds, so the defect is latent. | `fillDefaults(Data{}, 42, "", nil, "", nil)` returns a map without `text/plain` | as the comment says, plain text is set whenever it is missing or empty | not executed | Display.FillDefaultsAsWrittenDropsPlainText, Display.RenderFallbackDiverges | Display.FillDefaults, Display.RenderFallback |

=== FILE: base.dfy ===
/** Small shared vocabulary: optional values and bytes. */
module Base {

  /** Either nothing (a Go nil, a missing map key, a failed type assertion) or one value. */
  datatype Option<T> = None | Some(value: T)

  /** One octet, as in a Go `[]byte`. */
  newtype byte = x: int | 0 <= x < 256
}

=== FILE: completion.dfy ===
/**
 The completion reply of complete.go. The branch that would report the matches is
 disabled in the source, so every reply says that no completion was found.
 */
module Completion {
  import opened Base
  import opened Values
  import opened Display

  /** What the interpreter's `CompleteWords` returns. */
  datatype Completions = Completions(prefix: string, matches: seq<string>, tail: string)

  /** The interpreter's `CompleteWords(code, cursorPos)`. */
  type Completer = (string, int) -> Completions

  /** The fields of a `complete_request` the kernel reads. */
  datatype CompleteRequest = CompleteRequest(code: string, cursorPos: int)

  /**
   The request fields: `code` as a string, `cursor_pos` as a JSON number truncated to an
   `int`. None where one of the type assertions would panic.
   */
  function ParseCompleteRequest(content: Value): (r: Option<CompleteRequest>)
    ensures r.Some? <==> StringField(content, "code").Some? && NumberField(content, "cursor_pos").Some?
    ensures r.Some? ==> content.fields["code"] == Str(r.value.code)
    ensures r.Some? ==> r.value.cursorPos == TruncateToInt(content.fields["cursor_pos"].x)
  {
    match (StringField(content, "code"), NumberField(content, "cursor_pos"))
    case (Some(code), Some(pos)) => Some(CompleteRequest(code, TruncateToInt(pos)))
    case _ => None
  }

  /**
   The `complete_reply` content: the four error fields are set, and set again to the same
   values when there are no matches.
   */
  function CompleteReplyContent(matches: seq<string>): (content: MimeMap)
    ensures content.Keys == {"ename", "evalue", "traceback", "status"}
    ensures content["status"] == Str("error")
    ensures content["ename"] == Str("ERROR") && content["evalue"] == Str("no completions found")
    ensures content["traceback"] == Nil
  {
    var base := map["ename" := Str("ERROR"), "evalue" := Str("no completions found"),
                    "traceback" := Nil, "status" := Str("error")];
    if |matches| == 0 then
      base["ename" := Str("ERROR")]["evalue" := Str("no completions found")]
          ["traceback" := Nil]["status" := Str("error")]
    else base
  }

  /** The reply does not depend on the matches the interpreter found. */
  lemma CompleteReplyIgnoresMatches(a: seq<string>, b: seq<string>)
    ensures CompleteReplyContent(a) == CompleteReplyContent(b)
  {
  }

  /** The reply is the error payload `makeDataErr` builds for the message "no completions found". */
  lemma CompleteReplyIsDataErr(matches: seq<string>)
    ensures CompleteReplyContent(matches) == MakeDataErr(Error("no completions found")).data
  {
  }
}

=== FILE: display.dfy ===
/**
 The MIME data builders of display.go: choosing the value to show after an
 execution, rendering a value, and the `MakeData` family of constructors.
 */
module Display {
  import opened Base
  import opened GoStrings
  import opened Values

  const MimeHtml := "text/html"
  const MimeJavaScript := "application/javascript"
  const MimeJpeg := "image/jpeg"
  const MimeJson := "application/json"
  const MimeLatex := "text/latex"
  const MimeMarkdown := "text/markdown"
  const MimePng := "image/png"
  const MimePdf := "application/pdf"
  const MimeSvg := "image/svg+xml"
  const MimeText := "text/plain"

  /** `autoRenderResults`: the first returned value that is a `Data`, or `Data{}` when there is none. */
  function AutoRenderResults(vals: seq<Value>): (r: Data)
    ensures NoData(vals) ==> r == EmptyData
    ensures forall i :: 0 <= i < |vals| && vals[i].DataValue? && NoData(vals[..i]) ==> r == vals[i].d
  {
    if |vals| == 0 then EmptyData
    else if vals[0].DataValue? then vals[0].d
    else
      var r := AutoRenderResults(vals[1..]);
      assert forall i :: 1 <= i <= |vals| ==> vals[..i][1..] == vals[1..][..i - 1];
      r
  }

  /** None of the values is a `Data`. */
  predicate NoData(vals: seq<Value>) {
    forall i :: 0 <= i < |vals| ==> !vals[i].DataValue?
  }

  /** `canAutoRender`: every value is treated as auto-renderable. */
  function CanAutoRender(v: Value): (b: bool)
    ensures b
  {
    true
  }

  /** `autoRender`: a `Data` is shown as is; anything else renders as `Data{}`. */
  function AutoRender(mimeType: string, v: Value): (r: Data)
    ensures v.DataValue? ==> r == v.d
    ensures !v.DataValue? ==> r.data == map[] && r.metadata == map[] && r.transient == map[]
  {
    match v
    case DataValue(d) => d
    case _ => EmptyData
  }

  /** `makeDataErr`: the error payload. */
  function MakeDataErr(e: Error): (r: Data)
    ensures r.data.Keys == {"ename", "evalue", "traceback", "status"}
    ensures r.data["status"] == Str("error") && r.data["ename"] == Str("ERROR")
    ensures r.data["evalue"] == Str(e.message) && r.data["traceback"] == Nil
    ensures r.metadata == map[] && r.transient == map[]
  {
    Data(map["ename" := Str("ERROR"), "evalue" := Str(e.message), "traceback" := Nil, "status" := Str("error")],
         map[], map[])
  }

  /** The entry `fillDefaults` stores the raw bytes under, if any. */
  function BytesEntryType(b: seq<byte>, mimeType: string, f: Foreign): Option<string>
  {
    if |b| == 0 then None
    else
      var mt := if |mimeType| == 0 then f.detectContentType(b) else mimeType;
      if |mt| != 0 && mt != MimeText then Some(mt) else None
  }

  /**
   The keys `fillDefaults` may add or overwrite: the given type when there is a string to
   store under it, `text/plain`, and the bytes' type.
   */
  function FilledKeys(s: string, b: seq<byte>, mimeType: string, f: Foreign): set<string> {
    (if |s| != 0 && |mimeType| != 0 then {mimeType} else {}) + {MimeText}
      + (match BytesEntryType(b, mimeType, f) case Some(mt) => {mt} case None => {})
  }

  /**
   `fillDefaults` exactly as written: the plain-text default is applied only when the
   map already holds the empty string under `text/plain`, because a missing key reads
   as a nil interface, which is not equal to `""`.
   */
  function FillDefaultsAsWritten(data: Data, arg: Value, s: string, b: seq<byte>, mimeType: string,
                                 err: Option<Error>, f: Foreign): (r: Data)
    ensures err.Some? ==> r == MakeDataErr(err.value)
    ensures err.None? ==> r.metadata == data.metadata && r.transient == data.transient
    ensures (err.None? && MimeText !in data.data && (|s| == 0 || |mimeType| == 0 || mimeType != MimeText)
             && BytesEntryType(b, mimeType, f) != Some(MimeText)) ==> MimeText !in r.data
    ensures (err.None? && |s| != 0 && |mimeType| != 0 && BytesEntryType(b, mimeType, f) != Some(mimeType))
            ==> mimeType in r.data && r.data[mimeType] == Str(s)
    ensures (err.None? && MimeText in data.data && data.data[MimeText] == Str("") && (|s| == 0 || mimeType != MimeText))
            ==> MimeText in r.data && r.data[MimeText] == Str(if |s| == 0 then f.sprint(arg) else s)
    ensures err.None? && BytesEntryType(b, mimeType, f).Some? ==>
              BytesEntryType(b, mimeType, f).value in r.data && r.data[BytesEntryType(b, mimeType, f).value] == Bytes(b)
    ensures (err.None? && MimeText in data.data && data.data[MimeText] != Str("") && !(|s| != 0 && mimeType == MimeText))
            ==> MimeText in r.data && r.data[MimeText] == data.data[MimeText]
    ensures err.None? ==> r.data.Keys <= data.data.Keys + FilledKeys(s, b, mimeType, f)
    ensures err.None? ==> forall k :: k in data.data && k !in FilledKeys(s, b, mimeType, f) ==> k in r.data && r.data[k] == data.data[k]
  {
    if err.Some? then MakeDataErr(err.value)
    else
      var m1 := if |s| != 0 && |mimeType| != 0 then data.data[mimeType := Str(s)] else data.data;
      var m2 := if MimeText in m1 && m1[MimeText] == Str("")
                then m1[MimeText := Str(if |s| == 0 then f.sprint(arg) else s)] else m1;
      var m3 := match BytesEntryType(b, mimeType, f)
                case Some(mt) => m2[mt := Bytes(b)]
                case None => m2;
      data.(data := m3)
  }

  /** A value rendered with no text and no bytes gets no plain-text entry at all. */
  lemma FillDefaultsAsWrittenDropsPlainText(arg: Value, mimeType: string, f: Foreign)
    ensures MimeText !in FillDefaultsAsWritten(EmptyData, arg, "", [], mimeType, None, f).data
  {
  }

  /**
   `fillDefaults` with the plain-text default applied whenever `text/plain` is missing
   or empty, as its comment says it should be.
   */
  function FillDefaults(data: Data, arg: Value, s: string, b: seq<byte>, mimeType: string,
                        err: Option<Error>, f: Foreign): (r: Data)
    ensures err.Some? ==> r == MakeDataErr(err.value)
    ensures err.None? ==> r.metadata == data.metadata && r.transient == data.transient
    ensures err.None? ==> MimeText in r.data
    ensures (err.None? && |s| != 0 && |mimeType| != 0 && BytesEntryType(b, mimeType, f) != Some(mimeType))
            ==> mimeType in r.data && r.data[mimeType] == Str(s)
    ensures (err.None? && (MimeText !in data.data || data.data[MimeText] == Str("")) && (|s| == 0 || mimeType != MimeText))
            ==> r.data[MimeText] == Str(if |s| == 0 then f.sprint(arg) else s)
    ensures err.None? ==>
      forall k :: (k in r.data && r.data[k].Bytes? && r.data[k] != Bytes(b)) ==> k in data.data && r.data[k] == data.data[k]
    ensures err.None? && r.data[MimeText].Bytes? ==> MimeText in data.data && r.data[MimeText] == data.data[MimeText]
    ensures err.None? && BytesEntryType(b, mimeType, f).Some? ==>
              BytesEntryType(b, mimeType, f).value in r.data && r.data[BytesEntryType(b, mimeType, f).value] == Bytes(b)
    ensures (err.None? && MimeText in data.data && data.data[MimeText] != Str("") && !(|s| != 0 && mimeType == MimeText))
            ==> MimeText in r.data && r.data[MimeText] == data.data[MimeText]
    ensures err.None? ==> r.data.Keys <= data.data.Keys + FilledKeys(s, b, mimeType, f)
    ensures err.None? ==> forall k :: k in data.data && k !in FilledKeys(s, b, mimeType, f) ==> k in r.data && r.data[k] == data.data[k]
  {
    if err.Some? then MakeDataErr(err.value)
    else
      var m1 := if |s| != 0 && |mimeType| != 0 then data.data[mimeType := Str(s)] else data.data;
      var m2 := if MimeText !in m1 || m1[MimeText] == Str("")
                then m1[MimeText := Str(if |s| == 0 then f.sprint(arg) else s)] else m1;
      var m3 := match BytesEntryType(b, mimeType, f)
                case Some(mt) => m2[mt := Bytes(b)]
                case None => m2;
      data.(data := m3)
  }

  /** The branch of `render` after the `canAutoRender` test: strings and byte slices go through `fillDefaults`. */
  function RenderFallback(mimeType: string, v: Value, f: Foreign): (r: Panicking<Data>)
    ensures v.Str? || v.Bytes? <==> r.Returned?
    ensures r.Returned? ==> MimeText in r.value.data
  {
    match v
    case Str(s) => Returned(FillDefaults(EmptyData, v, s, [], mimeType, None, f))
    case Bytes(b) => Returned(FillDefaults(EmptyData, v, "", b, mimeType, None, f))
    case _ => Panic(ErrorValue(Error("unsupported type, cannot render: " + f.typeName(v))))
  }

  /** The same branch as written, through the unchanged `fillDefaults`: no plain-text entry unless the string itself goes under `text/plain`. */
  function RenderFallbackAsWritten(mimeType: string, v: Value, f: Foreign): (r: Panicking<Data>)
    ensures v.Str? || v.Bytes? <==> r.Returned?
    ensures r.Returned? && (mimeType != MimeText || v.Bytes?) ==> MimeText !in r.value.data
    ensures v.Str? && |v.s| != 0 && |mimeType| != 0 ==> r.value.data == map[mimeType := v]
  {
    match v
    case Str(s) => Returned(FillDefaultsAsWritten(EmptyData, v, s, [], mimeType, None, f))
    case Bytes(b) => Returned(FillDefaultsAsWritten(EmptyData, v, "", b, mimeType, None, f))
    case _ => Panic(ErrorValue(Error("unsupported type, cannot render: " + f.typeName(v))))
  }

  /** Rendering the string "abc" with no MIME type: nothing as written, the string as plain text once corrected. */
  lemma RenderFallbackDiverges(f: Foreign)
    ensures RenderFallbackAsWritten("", Str("abc"), f) == Returned(EmptyData)
    ensures RenderFallback("", Str("abc"), f).value.data[MimeText] == Str("abc")
  {
  }

  /** `render`: since `canAutoRender` always holds, a `Data` is returned as is and anything else as `Data{}`. */
  function Render(mimeType: string, v: Value, f: Foreign): (r: Panicking<Data>)
    ensures r.Returned?
    ensures v.DataValue? ==> r.value == v.d
    ensures !v.DataValue? ==> r.value == EmptyData
  {
    if CanAutoRender(v) then Returned(AutoRender(mimeType, v)) else RenderFallback(mimeType, v, f)
  }

  /** `Any`. */
  function Any(mimeType: string, v: Value, f: Foreign): (r: Panicking<Data>)
    ensures r == Returned(if v.DataValue? then v.d else EmptyData)
  {
    Render(mimeType, v, f)
  }

  /** `Auto`, that is `Any("", v)`. */
  function Auto(v: Value, f: Foreign): (r: Panicking<Data>)
    ensures r == Returned(if v.DataValue? then v.d else EmptyData)
  {
    Render("", v, f)
  }

  /** What `os.ReadFile` returned. */
  datatype ReadResult = Read(bytes: seq<byte>) | ReadFailed(err: Error)

  /** `File`: panics with the read error; otherwise renders the bytes, which yields `Data{}`. */
  function File(mimeType: string, contents: ReadResult, f: Foreign): (r: Panicking<Data>)
    ensures contents.ReadFailed? <==> r.Panic?
    ensures r.Panic? ==> r.p == ErrorValue(contents.err)
    ensures r.Returned? ==> r.value == EmptyData
  {
    match contents
    case ReadFailed(e) => Panic(ErrorValue(e))
    case Read(bytes) => Any(mimeType, Bytes(bytes), f)
  }

  /** `MakeData`: the value under its MIME type, and its formatted form under `text/plain` unless that is the type. */
  function MakeData(mimeType: string, x: Value, f: Foreign): (r: Data)
    ensures mimeType in r.data && r.data[mimeType] == x
    ensures mimeType == MimeText ==> r.data.Keys == {mimeType}
    ensures mimeType != MimeText ==> r.data.Keys == {mimeType, MimeText} && r.data[MimeText] == Str(f.sprint(x))
    ensures r.metadata == map[] && r.transient == map[]
  {
    var d := Data(map[mimeType := x], map[], map[]);
    if mimeType != MimeText then d.(data := d.data[MimeText := Str(f.sprint(x))]) else d
  }

  /** `MakeData3`: explicit plain text plus the value under its MIME type; the value wins if the type is `text/plain`. */
  function MakeData3(mimeType: string, plainText: string, x: Value): (r: Data)
    ensures mimeType in r.data && r.data[mimeType] == x
    ensures r.data.Keys == {mimeType, MimeText}
    ensures mimeType != MimeText ==> r.data[MimeText] == Str(plainText)
    ensures r.metadata == map[] && r.transient == map[]
  {
    Data(map[MimeText := Str(plainText)][mimeType := x], map[], map[])
  }

  /** The TeX source stripped of its own `$` signs and wrapped in `delim` on both sides. */
  function Enclose(latex: string, delim: string): (v: string)
    ensures var inner := Trim(latex, '$');
      && |v| == 2 * |delim| + |inner|
      && v[..|delim|] == delim && v[|v| - |delim|..] == delim
      && v[|delim|..|v| - |delim|] == inner
      && (|inner| == 0 || (v[|delim|] != '$' && v[|v| - |delim| - 1] != '$'))
  {
    var inner := Trim(latex, '$');
    Surround(delim, inner);
    delim + inner + delim
  }

  /** Where the parts of `d + x + d` sit. */
  lemma Surround(d: string, x: string)
    ensures var v := d + x + d;
      && |v| == 2 * |d| + |x|
      && v[..|d|] == d && v[|v| - |d|..] == d && v[|d|..|v| - |d|] == x
      && (|x| != 0 ==> v[|d|] == x[0] && v[|v| - |d| - 1] == x[|x| - 1])
  {
    var v := d + x + d;
    assert v[..|d|] == d;
    assert v[|v| - |d|..] == d;
    assert v[|d|..|v| - |d|] == x;
  }

  /** `Latex`: the source under `text/plain`, and under `text/latex` the source stripped of `$` and wrapped in one `$` each side. */
  function Latex(latex: string): (r: Data)
    ensures r.data.Keys == {MimeLatex, MimeText} && r.data[MimeText] == Str(latex)
    ensures r.data[MimeLatex] == Str(Enclose(latex, "$"))
  {
    MakeData3(MimeLatex, latex, Str(Enclose(latex, "$")))
  }

  /** `Math`: as `Latex`, with display-mode `$$` delimiters, that is one more `$` on each side. */
  function Math(latex: string): (r: Data)
    ensures r.data.Keys == Latex(latex).data.Keys && r.data[MimeText] == Latex(latex).data[MimeText]
    ensures r.data[MimeLatex] == Str("$" + Latex(latex).data[MimeLatex].s + "$")
  {
    var inner := Trim(latex, '$');
    assert "$$" + inner + "$$" == "$" + ("$" + inner + "$") + "$";
    MakeData3(MimeLatex, latex, Str(Enclose(latex, "$$")))
  }

  /** The named wrappers: `MakeData` with their MIME type. */
  function HTML(html: string, f: Foreign): Data
  {
    MakeData(MimeHtml, Str(html), f)
  }

  function JavaScript(javascript: string, f: Foreign): Data
  {
    MakeData(MimeJavaScript, Str(javascript), f)
  }

  function JPEG(jpeg: seq<byte>, f: Foreign): Data
  {
    MakeData(MimeJpeg, Bytes(jpeg), f)
  }

  function JSON(json: MimeMap, f: Foreign): Data
  {
    MakeData(MimeJson, Object(json), f)
  }

  function Markdown(markdown: string, f: Foreign): Data
  {
    MakeData(MimeMarkdown, Str(markdown), f)
  }

  function PDF(pdf: seq<byte>, f: Foreign): Data
  {
    MakeData(MimePdf, Bytes(pdf), f)
  }

  function PNG(png: seq<byte>, f: Foreign): Data
  {
    MakeData(MimePng, Bytes(png), f)
  }

  function SVG(svg: string, f: Foreign): Data
  {
    MakeData(MimeSvg, Str(svg), f)
  }

  /** The named wrappers store their argument under their own type, with its formatted form as plain text. */
  lemma WrappersStoreUnderTheirType(s: string, b: seq<byte>, j: MimeMap, f: Foreign)
    ensures HTML(s, f).data == map[MimeHtml := Str(s), MimeText := Str(f.sprint(Str(s)))]
    ensures JavaScript(s, f).data == map[MimeJavaScript := Str(s), MimeText := Str(f.sprint(Str(s)))]
    ensures Markdown(s, f).data == map[MimeMarkdown := Str(s), MimeText := Str(f.sprint(Str(s)))]
    ensures SVG(s, f).data == map[MimeSvg := Str(s), MimeText := Str(f.sprint(Str(s)))]
    ensures JPEG(b, f).data == map[MimeJpeg := Bytes(b), MimeText := Str(f.sprint(Bytes(b)))]
    ensures PNG(b, f).data == map[MimePng := Bytes(b), MimeText := Str(f.sprint(Bytes(b)))]
    ensures PDF(b, f).data == map[MimePdf := Bytes(b), MimeText := Str(f.sprint(Bytes(b)))]
    ensures JSON(j, f).data == map[MimeJson := Object(j), MimeText := Str(f.sprint(Object(j)))]
  {
    MakeDataPair(MimeHtml, Str(s), f);
    MakeDataPair(MimeJavaScript, Str(s), f);
    MakeDataPair(MimeMarkdown, Str(s), f);
    MakeDataPair(MimeSvg, Str(s), f);
    MakeDataPair(MimeJpeg, Bytes(b), f);
    MakeDataPair(MimePng, Bytes(b), f);
    MakeDataPair(MimePdf, Bytes(b), f);
    MakeDataPair(MimeJson, Object(j), f);
  }

  /** For any type but `text/plain`, `MakeData` holds exactly the value and its formatted form. */
  lemma MakeDataPair(mimeType: string, x: Value, f: Foreign)
    requires mimeType != MimeText
    ensures MakeData(mimeType, x, f).data == map[mimeType := x, MimeText := Str(f.sprint(x))]
  {
  }

  /** `MIME`: data and metadata are stored unchanged, with a nil transient part. */
  function MIME(data: MimeMap, metadata: MimeMap): (r: Data)
    ensures r.data == data && r.metadata == metadata && r.transient == map[]
  {
    Data(data, metadata, map[])
  }
}

=== FILE: eval.dfy ===
/**
 The evaluation boundary of eval.go: run the special commands of a cell, hand
 the rest to the interpreter, and turn any panic on the way into an error value.
 */
module Evaluation {
  import opened Base
  import opened Values
  import opened Special

  /** What the interpreter's `Eval` did: returned values, returned values with an error, or panicked. */
  datatype EvalOutcome =
    | Ok(values: seq<Value>)
    | Err(values: seq<Value>, error: Error)
    | Panicked(p: Value)

  /** The interpreter's `Eval`, as a function of the code it is given. */
  type Interpreter = string -> EvalOutcome

  /**
   What `doEval` returns, together with what the special commands did and the code the
   interpreter was called with (None when it was never called).
   */
  datatype Evaluated = Evaluated(values: seq<Value>, error: Option<Error>, effects: seq<Effect>,
                                 interpreted: Option<string>)

  /** The deferred `recover` of `doEval`: an `error` is kept, any other value becomes an error with its formatted text. */
  function Recover(p: Value, f: Foreign): (e: Error)
    ensures p.ErrorValue? ==> e == p.e
    ensures !p.ErrorValue? ==> e.message == f.sprint(p)
  {
    match p
    case ErrorValue(err) => err
    case _ => Error(f.sprint(p))
  }

  /** `doEval`: the interpreter sees only the filtered cell, and no panic escapes. */
  function DoEval(ir: Interpreter, os: Os, f: Foreign, code: string): (r: Evaluated)
    ensures var run := RunCommands(os, f, Commands(code));
      && r.effects == run.effects
      && (r.interpreted.None? <==> run.fault.Some?)
      && (run.fault.Some? ==> r.values == [] && r.error == Some(run.fault.value))
    ensures r.interpreted.Some? ==> r.interpreted.value == FilterText(code)
    ensures r.interpreted.Some? ==>
      match ir(FilterText(code))
      case Ok(vals) => r.values == vals && r.error == None
      case Err(vals, e) => r.values == vals && r.error == Some(e)
      case Panicked(p) => r.values == [] && r.error == Some(Recover(p, f))
  {
    match EvalSpecialCommands(os, f, code)
    case Aborted(fault, effects) =>
      // the commands panic with an error value, which `recover` hands back unchanged
      Evaluated([], Some(Recover(ErrorValue(fault), f)), effects, None)
    case Done(filtered, effects) =>
      match ir(filtered)
      case Ok(vals) => Evaluated(vals, None, effects, Some(filtered))
      case Err(vals, e) => Evaluated(vals, Some(e), effects, Some(filtered))
      case Panicked(p) => Evaluated([], Some(Recover(p, f)), effects, Some(filtered))
  }

  /** An unknown `%` directive stops the cell before the interpreter sees it, with an error and no values. */
  lemma UnknownDirectiveSkipsInterpreter(ir: Interpreter, os: Os, f: Foreign, code: string)
    requires |Commands(code)| != 0 && Commands(code)[0].UnknownDirective?
    ensures DoEval(ir, os, f, code).interpreted == None
    ensures DoEval(ir, os, f, code).values == []
    ensures DoEval(ir, os, f, code).error
              == Some(Error("unknown special command: " + f.quote(Commands(code)[0].line) + "\n" + HelpText))
  {
  }

  /** A cell without special lines reaches the interpreter unchanged. */
  lemma PlainCellReachesInterpreter(ir: Interpreter, os: Os, f: Foreign, code: string)
    requires forall i :: 0 <= i < |Lines(code)| ==> KindOf(Lines(code)[i]) != SpecialLine
    ensures DoEval(ir, os, f, code).interpreted == Some(code)
    ensures DoEval(ir, os, f, code).effects == []
  {
    var lines := Lines(code);
    FilterUnchangedIff(code);
    NoSpecialNoCommands(lines[..StopIndex(lines)]);
  }

  /** Lines without special lines yield no commands. */
  lemma {:induction false} NoSpecialNoCommands(lines: seq<string>)
    requires forall i :: 0 <= i < |lines| ==> KindOf(lines[i]) != SpecialLine
    ensures CommandsIn(lines) == []
  {
    if |lines| != 0 {
      NoSpecialNoCommands(lines[1..]);
    }
  }
}

=== FILE: gostrings.dfy ===
/**
 The few functions of Go's `strings` package that the kernel relies on, on
 strings modelled as sequences of Unicode code points.
 */
module GoStrings {
  import opened Base

  /** Go's `unicode.IsSpace`: the Latin-1 spaces plus the Unicode White_Space characters. */
  predicate IsSpace(c: char) {
    var n := c as int;
    n == 0x09 || n == 0x0A || n == 0x0B || n == 0x0C || n == 0x0D || n == 0x20
    || n == 0x85 || n == 0xA0 || n == 0x1680 || (0x2000 <= n <= 0x200A)
    || n == 0x2028 || n == 0x2029 || n == 0x202F || n == 0x205F || n == 0x3000
  }

  /** Among ASCII characters, exactly tab, newline, vertical tab, form feed, carriage return and space are white space; in the rest of Latin-1, exactly U+0085 and U+00A0. */
  lemma SpaceCharacters(c: char)
    ensures c as int < 0x80 ==> (IsSpace(c) <==> c == ' ' || c == '\t' || c == '\n' || c == '\r' || c as int == 0x0B || c as int == 0x0C)
    ensures 0x80 <= c as int < 0x100 ==> (IsSpace(c) <==> c as int == 0x85 || c as int == 0xA0)
  {
  }

  predicate AllSpace(s: string) {
    forall i :: 0 <= i < |s| ==> IsSpace(s[i])
  }

  /** `strings.Split(s, sep)` for a one-character separator: never empty, no piece holds `sep`. */
  function Split(s: string, sep: char): (r: seq<string>)
    ensures |r| >= 1
    ensures forall i :: 0 <= i < |r| ==> sep !in r[i]
  {
    if |s| == 0 then [""]
    else
      var rest := Split(s[1..], sep);
      if s[0] == sep then [""] + rest
      else [[s[0]] + rest[0]] + rest[1..]
  }

  /** `strings.Join(parts, sep)` for a one-character separator: the parts in order, one separator between neighbours. */
  function Join(parts: seq<string>, sep: char): string
  {
    if |parts| == 0 then ""
    else if |parts| == 1 then parts[0]
    else parts[0] + [sep] + Join(parts[1..], sep)
  }

  /** A join starts with the first part, ends with the last, and puts the separator right after the first. */
  lemma {:induction false} JoinShape(parts: seq<string>, sep: char)
    ensures var r := Join(parts, sep);
      && (|parts| == 0 ==> r == "")
      && (|parts| >= 1 ==> |parts[0]| <= |r| && r[..|parts[0]|] == parts[0])
      && (|parts| >= 1 ==> |parts[|parts| - 1]| <= |r| && r[|r| - |parts[|parts| - 1]|..] == parts[|parts| - 1])
      && (|parts| >= 2 ==> |parts[0]| < |r| && r[|parts[0]|] == sep)
  {
    if |parts| >= 2 {
      var rest := Join(parts[1..], sep);
      JoinShape(parts[1..], sep);
      var r := parts[0] + [sep] + rest;
      assert r[..|parts[0]|] == parts[0];
      assert r[|r| - |rest|..] == rest;
      assert r[|r| - |parts[|parts| - 1]|..] == rest[|rest| - |parts[|parts| - 1]|..];
    }
  }

  /** Joining the pieces of a split gives back the original text. */
  lemma {:induction false} JoinSplit(s: string, sep: char)
    ensures Join(Split(s, sep), sep) == s
  {
    if |s| != 0 {
      var rest := Split(s[1..], sep);
      JoinSplit(s[1..], sep);
      if s[0] == sep {
        assert Split(s, sep) == [""] + rest;
        assert ([""] + rest)[1..] == rest;
      } else {
        var r := Split(s, sep);
        assert r == [[s[0]] + rest[0]] + rest[1..];
        if |rest| == 1 {
          assert Join(r, sep) == [s[0]] + rest[0];
        } else {
          assert r[1..] == rest[1..];
          assert Join(rest, sep) == rest[0] + [sep] + Join(rest[1..], sep);
        }
      }
    }
  }

  /** Splitting a piece followed by the separator peels that piece off. */
  lemma {:induction false} SplitAfterPiece(a: string, b: string, sep: char)
    requires sep !in a
    ensures Split(a + [sep] + b, sep) == [a] + Split(b, sep)
  {
    if |a| == 0 {
      assert a + [sep] + b == [sep] + b;
      assert ([sep] + b)[1..] == b;
    } else {
      assert (a + [sep] + b)[1..] == a[1..] + [sep] + b;
      SplitAfterPiece(a[1..], b, sep);
      assert [a[0]] + a[1..] == a;
    }
  }

  /** A separator-free text is a single piece. */
  lemma {:induction false} SplitWhole(a: string, sep: char)
    requires sep !in a
    ensures Split(a, sep) == [a]
  {
    if |a| != 0 {
      SplitWhole(a[1..], sep);
      assert [a[0]] + a[1..] == a;
    }
  }

  /** Splitting a join of separator-free pieces gives back the pieces. */
  lemma {:induction false} SplitJoin(parts: seq<string>, sep: char)
    requires |parts| >= 1
    requires forall i :: 0 <= i < |parts| ==> sep !in parts[i]
    ensures Split(Join(parts, sep), sep) == parts
  {
    if |parts| == 1 {
      SplitWhole(parts[0], sep);
    } else {
      SplitJoin(parts[1..], sep);
      SplitAfterPiece(parts[0], Join(parts[1..], sep), sep);
      assert [parts[0]] + parts[1..] == parts;
    }
  }

  /** The characters a trim removes: white space (`TrimSpace`) or one given character (`Trim` with a one-character cutset). */
  datatype Cutset = WhiteSpace | Only(c: char)

  predicate InCutset(cut: Cutset, x: char) {
    match cut
    case WhiteSpace => IsSpace(x)
    case Only(c) => x == c
  }

  /** Drops the longest prefix of characters in the cutset. */
  function TrimLeft(s: string, cut: Cutset): (r: string)
    ensures |r| <= |s| && r == s[|s| - |r|..]
    ensures forall i :: 0 <= i < |s| - |r| ==> InCutset(cut, s[i])
    ensures |r| == 0 || !InCutset(cut, r[0])
  {
    if |s| == 0 || !InCutset(cut, s[0]) then s else TrimLeft(s[1..], cut)
  }

  /** Drops the longest suffix of characters in the cutset. */
  function TrimRight(s: string, cut: Cutset): (r: string)
    ensures |r| <= |s| && r == s[..|r|]
    ensures forall i :: |r| <= i < |s| ==> InCutset(cut, s[i])
    ensures |r| == 0 || !InCutset(cut, r[|r| - 1])
  {
    if |s| == 0 || !InCutset(cut, s[|s| - 1]) then s else TrimRight(s[..|s| - 1], cut)
  }

  /**
   What the two trims leave: a suffix `t` of `s` after a run of cutset characters, then a
   prefix `u` of `t` before a run of them, is a slice of `s` with only cutset characters around it.
   */
  lemma TrimmedSlice(s: string, t: string, u: string, cut: Cutset)
    requires |t| <= |s| && t == s[|s| - |t|..]
    requires forall k :: 0 <= k < |s| - |t| ==> InCutset(cut, s[k])
    requires |u| <= |t| && u == t[..|u|]
    requires forall k :: |u| <= k < |t| ==> InCutset(cut, t[k])
    ensures var i := |s| - |t|;
      && i + |u| <= |s| && u == s[i..i + |u|]
      && (forall k :: 0 <= k < i ==> InCutset(cut, s[k]))
      && (forall k :: i + |u| <= k < |s| ==> InCutset(cut, s[k]))
  {
    var i := |s| - |t|;
    assert u == s[i..i + |u|];
    forall k | i + |u| <= k < |s|
      ensures InCutset(cut, s[k])
    {
      assert s[k] == t[k - i];
    }
  }

  /** `strings.TrimSpace`: the text with its leading and trailing white space removed. */
  function TrimSpace(s: string): (r: string)
    ensures |r| <= |s|
    ensures |r| == 0 || (!IsSpace(r[0]) && !IsSpace(r[|r| - 1]))
    ensures exists i, j {:trigger s[i..j]} :: 0 <= i <= j <= |s| && r == s[i..j] && AllSpace(s[..i]) && AllSpace(s[j..])
  {
    var t := TrimLeft(s, WhiteSpace);
    var u := TrimRight(t, WhiteSpace);
    var i := |s| - |t|;
    TrimmedSlice(s, t, u, WhiteSpace);
    SpaceAround(s, i, i + |u|);
    assert |u| != 0 ==> u[0] == t[0];
    u
  }

  /** White space on either side of `s[i..j]`, as `AllSpace` of the two remaining pieces. */
  lemma SpaceAround(s: string, i: nat, j: nat)
    requires i <= j <= |s|
    requires forall k :: 0 <= k < i ==> InCutset(WhiteSpace, s[k])
    requires forall k :: j <= k < |s| ==> InCutset(WhiteSpace, s[k])
    ensures AllSpace(s[..i]) && AllSpace(s[j..])
  {
    assert forall k :: 0 <= k < i ==> s[..i][k] == s[k];
    assert forall k :: 0 <= k < |s| - j ==> s[j..][k] == s[j + k];
  }

  /** `strings.Trim(s, cutset)` for a one-character cutset. */
  function Trim(s: string, c: char): (r: string)
    ensures |r| == 0 || (r[0] != c && r[|r| - 1] != c)
    ensures exists i, j {:trigger s[i..j]} :: 0 <= i <= j <= |s| && r == s[i..j] && AllChar(s[..i], c) && AllChar(s[j..], c)
  {
    var t := TrimLeft(s, Only(c));
    var u := TrimRight(t, Only(c));
    var i := |s| - |t|;
    TrimmedSlice(s, t, u, Only(c));
    CharAround(s, i, i + |u|, c);
    assert |u| != 0 ==> u[0] == t[0];
    u
  }

  /** Every character of `s` is `c`. */
  predicate AllChar(s: string, c: char) {
    forall k :: 0 <= k < |s| ==> s[k] == c
  }

  /** Only `c` on either side of `s[i..j]`. */
  lemma CharAround(s: string, i: nat, j: nat, c: char)
    requires i <= j <= |s|
    requires forall k :: 0 <= k < i ==> InCutset(Only(c), s[k])
    requires forall k :: j <= k < |s| ==> InCutset(Only(c), s[k])
    ensures AllChar(s[..i], c) && AllChar(s[j..], c)
  {
    assert forall k :: 0 <= k < i ==> s[..i][k] == s[k];
    assert forall k :: 0 <= k < |s| - j ==> s[j..][k] == s[j + k];
  }

  /** A non-empty run of non-space characters. */
  predicate IsWord(w: string) {
    |w| > 0 && forall j :: 0 <= j < |w| ==> !IsSpace(w[j])
  }

  /** The longest prefix of `s` without white space. */
  function Word(s: string): (r: string)
    ensures |r| <= |s| && r == s[..|r|]
    ensures forall i :: 0 <= i < |r| ==> !IsSpace(r[i])
    ensures |r| == |s| || IsSpace(s[|r|])
  {
    if |s| == 0 || IsSpace(s[0]) then "" else [s[0]] + Word(s[1..])
  }

  /**
   `strings.Fields`: the maximal runs of non-space characters, in order. The fields put
   together are the text without its white space, and the first field is the first word.
   */
  function Fields(s: string): (r: seq<string>)
    ensures forall i :: 0 <= i < |r| ==> IsWord(r[i])
    ensures |r| == 0 <==> AllSpace(s)
    ensures Concat(r) == NonSpace(s)
    ensures |r| != 0 ==> r[0] == Word(TrimLeft(s, WhiteSpace))
    decreases |s|
  {
    if |s| == 0 then []
    else if IsSpace(s[0]) then
      SpaceStep(s);
      Fields(s[1..])
    else
      var w := Word(s);
      var rest := Fields(s[|w|..]);
      WordStep(s, rest);
      [w] + rest
  }

  /** A leading space changes neither the words, nor the first word, nor whether the text is all space. */
  lemma SpaceStep(s: string)
    requires |s| != 0 && IsSpace(s[0])
    ensures AllSpace(s) <==> AllSpace(s[1..])
    ensures NonSpace(s) == NonSpace(s[1..])
    ensures TrimLeft(s, WhiteSpace) == TrimLeft(s[1..], WhiteSpace)
  {
    SpaceStepAll(s);
    SpaceStepNonSpace(s);
    assert TrimLeft(s, WhiteSpace) == TrimLeft(s[1..], WhiteSpace);
  }

  lemma SpaceStepAll(s: string)
    requires |s| != 0 && IsSpace(s[0])
    ensures AllSpace(s) <==> AllSpace(s[1..])
  {
    assert forall k :: 1 <= k < |s| ==> s[k] == s[1..][k - 1];
  }

  lemma SpaceStepNonSpace(s: string)
    requires |s| != 0 && IsSpace(s[0])
    ensures NonSpace(s) == NonSpace(s[1..])
  {
    assert NonSpace(s) == "" + NonSpace(s[1..]);
    assert "" + NonSpace(s[1..]) == NonSpace(s[1..]);
  }

  /** A text starting with a word: that word, then the fields of what follows it. */
  lemma WordStep(s: string, rest: seq<string>)
    requires |s| != 0 && !IsSpace(s[0])
    requires Concat(rest) == NonSpace(s[|Word(s)|..])
    ensures IsWord(Word(s)) && !AllSpace(s)
    ensures Concat([Word(s)] + rest) == NonSpace(s)
    ensures TrimLeft(s, WhiteSpace) == s
  {
    var w := Word(s);
    assert w[0] == s[0];
    NonSpaceWord(s);
    assert ([w] + rest)[1..] == rest;
  }

  /** The pieces, put together. */
  function Concat(ws: seq<string>): string {
    if |ws| == 0 then "" else ws[0] + Concat(ws[1..])
  }

  /** The text with every white-space character removed. */
  function NonSpace(s: string): string {
    if |s| == 0 then "" else (if IsSpace(s[0]) then "" else [s[0]]) + NonSpace(s[1..])
  }

  /** The leading word is kept whole by `NonSpace`. */
  lemma {:induction false} NonSpaceWord(s: string)
    ensures NonSpace(s) == Word(s) + NonSpace(s[|Word(s)|..])
  {
    if |s| != 0 && !IsSpace(s[0]) {
      var w := Word(s[1..]);
      var rest := s[1..][|w|..];
      assert Word(s) == [s[0]] + w;
      assert rest == s[|Word(s)|..];
      assert NonSpace(s) == [s[0]] + NonSpace(s[1..]);
      NonSpaceWord(s[1..]);
      assert [s[0]] + (w + NonSpace(rest)) == ([s[0]] + w) + NonSpace(rest);
    } else {
      assert Word(s) == "";
      assert s[0..] == s;
      assert "" + NonSpace(s) == NonSpace(s);
    }
  }

  /** A word followed by white space or the end is the leading word. */
  lemma {:induction false} WordOfWord(w: string, rest: string)
    requires forall j :: 0 <= j < |w| ==> !IsSpace(w[j])
    requires |rest| == 0 || IsSpace(rest[0])
    ensures Word(w + rest) == w
  {
    if |w| != 0 {
      assert (w + rest)[1..] == w[1..] + rest;
      WordOfWord(w[1..], rest);
      assert [w[0]] + w[1..] == w;
    }
  }

  /** White space in front of a text does not change its fields. */
  lemma {:induction false} FieldsSpaces(sp: string, t: string)
    requires AllSpace(sp)
    ensures Fields(sp + t) == Fields(t)
    decreases |sp|
  {
    if |sp| == 0 {
      assert sp + t == t;
    } else {
      assert (sp + t)[0] == sp[0];
      assert (sp + t)[1..] == sp[1..] + t;
      FieldsSpaceHead(sp + t);
      FieldsSpaces(sp[1..], t);
    }
  }

  /** A leading white-space character is skipped. */
  lemma FieldsSpaceHead(s: string)
    requires |s| != 0 && IsSpace(s[0])
    ensures Fields(s) == Fields(s[1..])
  {
  }

  /** A word followed by white space or by nothing is the first field, and the fields after it are those of the rest. */
  lemma FieldsAfterWord(w: string, t: string)
    requires IsWord(w)
    requires |t| == 0 || IsSpace(t[0])
    ensures Fields(w + t) == [w] + Fields(t)
  {
    var s := w + t;
    WordOfWord(w, t);
    assert s[0] == w[0];
    assert s[|w|..] == t;
  }

  /** A single word is its only field. */
  lemma FieldsOfWord(w: string)
    requires IsWord(w)
    ensures Fields(w) == [w]
  {
    FieldsAfterWord(w, "");
    assert w + "" == w;
  }

  /** White space, a word, then white space or nothing: that word, then the fields of the rest. */
  lemma FieldsOfGapAndWord(gap: string, w: string, rest: string, tailWords: seq<string>)
    requires AllSpace(gap) && IsWord(w)
    requires |rest| == 0 || IsSpace(rest[0])
    requires Fields(rest) == tailWords
    ensures Fields(gap + (w + rest)) == [w] + tailWords
  {
    FieldsSpaces(gap, w + rest);
    FieldsAfterWord(w, rest);
  }

  /** Splitting words joined by spaces into fields gives back the words. */
  lemma {:induction false} FieldsJoin(ws: seq<string>)
    requires forall i :: 0 <= i < |ws| ==> IsWord(ws[i])
    ensures Fields(Join(ws, ' ')) == ws
  {
    if |ws| == 1 {
      FieldsOfWord(ws[0]);
    } else if |ws| >= 2 {
      var tail := Join(ws[1..], ' ');
      assert Join(ws, ' ') == ws[0] + ([' '] + tail);
      assert [ws[0]] + ws[1..] == ws;
      FieldsJoin(ws[1..]);
      FieldsSpaces([' '], tail);
      FieldsAfterWord(ws[0], [' '] + tail);
    }
  }

  /** The words laid out with the given white-space gaps: `gaps[0] + ws[0] + gaps[1] + … + ws[n-1] + gaps[n]`. */
  function Spread(ws: seq<string>, gaps: seq<string>): string
    requires |gaps| == |ws| + 1
    decreases |ws|
  {
    if |ws| == 0 then gaps[0] else gaps[0] + (ws[0] + Spread(ws[1..], gaps[1..]))
  }

  /** Gaps of white space, any at the two ends, at least one character between two words. */
  predicate SpaceGaps(gaps: seq<string>) {
    && (forall i :: 0 <= i < |gaps| ==> AllSpace(gaps[i]))
    && (forall i :: 0 < i < |gaps| - 1 ==> |gaps[i]| != 0)
  }

  /** What follows the first word of a spread starts with white space, or is empty. */
  lemma SpreadTailStartsWithSpace(ws: seq<string>, gaps: seq<string>)
    requires |ws| >= 1 && |gaps| == |ws| + 1 && SpaceGaps(gaps)
    ensures var rest := Spread(ws[1..], gaps[1..]);
            |rest| == 0 || IsSpace(rest[0])
  {
    var rest := Spread(ws[1..], gaps[1..]);
    if |ws| == 1 {
      assert rest == gaps[1];
      assert AllSpace(gaps[1]);
    } else {
      assert rest == gaps[1] + (ws[1..][0] + Spread(ws[1..][1..], gaps[1..][1..]));
      assert |gaps[1]| != 0 && AllSpace(gaps[1]);
      assert rest[0] == gaps[1][0];
    }
  }

  /** Words laid out with any white-space gaps split back into exactly those words. */
  lemma {:induction false} FieldsSpread(ws: seq<string>, gaps: seq<string>)
    requires forall i :: 0 <= i < |ws| ==> IsWord(ws[i])
    requires |gaps| == |ws| + 1 && SpaceGaps(gaps)
    ensures Fields(Spread(ws, gaps)) == ws
    decreases |ws|
  {
    if |ws| == 0 {
      assert AllSpace(gaps[0]);
    } else {
      assert [ws[0]] + ws[1..] == ws;
      assert SpaceGaps(gaps[1..]) by {
        assert forall i :: 0 <= i < |gaps| - 1 ==> gaps[1..][i] == gaps[i + 1];
      }
      FieldsSpread(ws[1..], gaps[1..]);
      SpreadTailStartsWithSpace(ws, gaps);
      FieldsOfGapAndWord(gaps[0], ws[0], Spread(ws[1..], gaps[1..]), ws[1..]);
    }
  }

  /** `strings.SplitN(s, sep, 2)`: the text before the first `sep`, and the rest after it if there is one. */
  function Cut(s: string, sep: char): (r: (string, Option<string>))
    ensures sep !in r.0
    ensures r.1.None? ==> r.0 == s
    ensures r.1.Some? ==> s == r.0 + [sep] + r.1.value
  {
    if |s| == 0 then ("", None)
    else if s[0] == sep then ("", Some(s[1..]))
    else
      var rest := Cut(s[1..], sep);
      ([s[0]] + rest.0, rest.1)
  }

  /** `Cut` splits at the first occurrence of the separator. */
  lemma {:induction false} CutAt(s: string, sep: char, k: nat)
    requires k < |s| && s[k] == sep && sep !in s[..k]
    ensures Cut(s, sep) == (s[..k], Some(s[k + 1..]))
  {
    if k != 0 {
      assert s[1..][..k - 1] == s[1..k];
      assert forall i :: 0 <= i < k - 1 ==> s[1..k][i] == s[..k][i + 1];
      CutAt(s[1..], sep, k - 1);
      assert [s[0]] + s[1..k] == s[..k];
      assert s[1..][k..] == s[k + 1..];
    }
  }

  /** Without a separator, `Cut` returns the whole text. */
  lemma {:induction false} CutNone(s: string, sep: char)
    requires sep !in s
    ensures Cut(s, sep) == (s, None)
  {
    if |s| != 0 {
      CutNone(s[1..], sep);
      assert [s[0]] + s[1..] == s;
    }
  }

  /** Does `s` start with `prefix` (Go's `strings.HasPrefix`)? */
  predicate HasPrefix(s: string, prefix: string) {
    |prefix| <= |s| && s[..|prefix|] == prefix
  }
}

=== FILE: kernel.dfy ===
/**
 Handling of one shell or control message (kernel.go): the routing by message type,
 the `busy`/`idle` status around every handler, and what each handler publishes and
 replies. The state carried from one message to the next is the execution counter.

 Publishing and replying go through the message receipt, whose code is not part of
 this model. Publishing errors are only logged, so a published event is recorded as
 attempted. A failed reply is fatal, and the `World` says whether the reply got through.
 */
module Kernel {
  import opened Base
  import opened Values
  import opened Display
  import opened Special
  import opened Evaluation
  import opened Completion

  /** The execution states published on IOPub. */
  datatype KernelState = Starting | Busy | Idle

  /** The state's name on the wire. */
  function StateName(st: KernelState): (name: string)
    ensures st == Starting <==> name == "starting"
    ensures st == Busy <==> name == "busy"
    ensures st == Idle <==> name == "idle"
  {
    match st
    case Starting => "starting"
    case Busy => "busy"
    case Idle => "idle"
  }

  /** The execution counter's value when the kernel starts: Go's zero value for `int`. */
  const InitialCounter := 0

  datatype LanguageInfo = LanguageInfo(name: string, version: string, mimeType: string, fileExtension: string,
                                       pygmentsLexer: string, codeMirrorMode: string, nbconvertExporter: string)

  datatype HelpLink = HelpLink(text: string, url: string)

  /** The `kernel_info_reply` payload. */
  datatype KernelInfo = KernelInfo(protocolVersion: string, implementation: string, implementationVersion: string,
                                   languageInfo: LanguageInfo, banner: string, helpLinks: seq<HelpLink>)

  /**
   The kernel: its info, and the formatting calls it makes. The interpreter, which Go keeps
   here too, is part of the `World` so that it may answer differently from one message to the next.
   */
  datatype Kernel = Kernel(info: KernelInfo, f: Foreign)

  /** The content of a reply, as the Go value passed to `Reply`. */
  datatype ReplyContent =
    | MapContent(fields: MimeMap)
    | InfoContent(info: KernelInfo)
    | IsCompleteContent(status: string, indent: string)
    | ShutdownContent(restart: bool)

  /** What the kernel publishes on IOPub or sends back on the request's socket, in order. */
  datatype Event =
    | Status(state: KernelState)
    | ExecuteInput(count: int, code: string)
    | Output(effects: seq<Effect>)   // the stream output of the cell, of which only the special commands' part is modelled
    | ExecuteResult(count: int, data: Data)
    | ExecutionError(evalue: string, traceback: seq<string>)
    | Reply(msgType: string, content: ReplyContent)

  /** A decoded message: its header's type and its content. */
  datatype Message = Message(msgType: string, content: Value)

  /**
   Everything outside the kernel that one message's handling depends on: the interpreter,
   the operating system, whether the standard streams can be redirected, and whether the
   reply is sent.
   */
  datatype World = World(eval: Interpreter, complete: Completer, os: Os, pipesOpen: bool, replySent: bool)

  /**
   How handling ended: the loop goes on, the process exits (`os.Exit`), the process is
   stopped by `log.Fatal`, or a failed type assertion panics out of the handler.
   */
  datatype Outcome = Continue | Exit(code: int) | Fatal | Crash

  /** The counter after the handler, the events in order, and how it ended. */
  datatype Handled = Handled(counter: int, events: seq<Event>, outcome: Outcome)

  predicate NoStatus(events: seq<Event>) {
    forall i :: 0 <= i < |events| ==> !events[i].Status?
  }

  /** `checkComplete`: the real check is disabled, so every code is complete and needs no indent. */
  function CheckComplete(code: string): (r: (string, string))
    ensures r.0 == "complete" && r.1 == ""
  {
    ("complete", "")
  }

  /** `receipt.Reply`: the reply goes out and handling goes on, or the failure is fatal. */
  function SendReply(counter: int, w: World, msgType: string, content: ReplyContent): (r: Handled)
    ensures r.counter == counter && NoStatus(r.events)
    ensures w.replySent ==> r.events == [Reply(msgType, content)] && r.outcome == Continue
    ensures !w.replySent ==> r.events == [] && r.outcome == Fatal
  {
    if w.replySent then Handled(counter, [Reply(msgType, content)], Continue)
    else Handled(counter, [], Fatal)
  }

  /** `sendKernelInfo`. */
  function HandleKernelInfo(k: Kernel, counter: int, w: World): (r: Handled)
    ensures r.counter == counter
    ensures w.replySent ==> r.events == [Reply("kernel_info_reply", InfoContent(k.info))] && r.outcome == Continue
    ensures !w.replySent ==> r.events == [] && r.outcome == Fatal
  {
    SendReply(counter, w, "kernel_info_reply", InfoContent(k.info))
  }

  /** `handleIsCompleteRequest`: a missing or non-string `code` panics. */
  function HandleIsComplete(counter: int, content: Value, w: World): (r: Handled)
    ensures StringField(content, "code").None? ==> r == Handled(counter, [], Crash)
    ensures StringField(content, "code").Some? ==>
              r == SendReply(counter, w, "is_complete_reply", IsCompleteContent("complete", ""))
  {
    match StringField(content, "code")
    case None => Handled(counter, [], Crash)
    case Some(code) =>
      var (status, indent) := CheckComplete(code);
      SendReply(counter, w, "is_complete_reply", IsCompleteContent(status, indent))
  }

  /** `handleCompleteRequest`: whatever the matches, the reply is the "no completions found" error. */
  function HandleComplete(counter: int, content: Value, w: World): (r: Handled)
    ensures ParseCompleteRequest(content).None? ==> r == Handled(counter, [], Crash)
    ensures ParseCompleteRequest(content).Some? ==>
              r == SendReply(counter, w, "complete_reply", MapContent(MakeDataErr(Error("no completions found")).data))
  {
    match ParseCompleteRequest(content)
    case None => Handled(counter, [], Crash)
    case Some(req) =>
      var found := w.complete(req.code, req.cursorPos);
      CompleteReplyIsDataErr(found.matches);
      SendReply(counter, w, "complete_reply", MapContent(CompleteReplyContent(found.matches)))
  }

  /** `handleShutdownRequest`: the reply echoes `restart`, then the process exits with status 0. */
  function HandleShutdown(counter: int, content: Value, w: World): (r: Handled)
    ensures r.counter == counter && NoStatus(r.events)
    ensures BoolField(content, "restart").None? ==> r.events == [] && r.outcome == Crash
    ensures BoolField(content, "restart").Some? && w.replySent ==>
              r.events == [Reply("shutdown_reply", ShutdownContent(content.fields["restart"].b))] && r.outcome == Exit(0)
    ensures BoolField(content, "restart").Some? && !w.replySent ==> r.events == [] && r.outcome == Fatal
  {
    match BoolField(content, "restart")
    case None => Handled(counter, [], Crash)
    case Some(restart) =>
      if w.replySent then Handled(counter, [Reply("shutdown_reply", ShutdownContent(restart))], Exit(0))
      else Handled(counter, [], Fatal)
  }

  /** The fields of an `execute_request` the kernel reads. */
  datatype ExecuteRequest = ExecuteRequest(code: string, silent: bool)

  /** `code` as a string and `silent` as a bool; None where a type assertion would panic. */
  function ParseExecuteRequest(content: Value): (r: Option<ExecuteRequest>)
    ensures r.Some? <==> StringField(content, "code").Some? && BoolField(content, "silent").Some?
    ensures r.Some? ==> content.fields["code"] == Str(r.value.code) && content.fields["silent"] == Bool(r.value.silent)
  {
    match (StringField(content, "code"), BoolField(content, "silent"))
    case (Some(code), Some(silent)) => Some(ExecuteRequest(code, silent))
    case _ => None
  }

  /** The `execute_reply` content for execution number `count`, after success or an error. */
  function ExecuteReplyContent(count: int, err: Option<Error>): (content: MimeMap)
    ensures "execution_count" in content && content["execution_count"] == Int(count)
    ensures err.None? ==> content.Keys == {"execution_count", "status", "user_expressions"}
    ensures err.None? ==> content["status"] == Str("ok") && content["user_expressions"] == Object(map[])
    ensures err.Some? ==> content == MakeDataErr(err.value).data["execution_count" := Int(count)]
  {
    match err
    case None =>
      map["execution_count" := Int(count), "status" := Str("ok"), "user_expressions" := Object(map[])]
    case Some(e) =>
      map["execution_count" := Int(count), "status" := Str("error"), "ename" := Str("ERROR"),
          "evalue" := Str(e.message), "traceback" := Nil]
  }

  /** What the result of an execution publishes: the rendered data, the error, or nothing. */
  function Published(count: int, silent: bool, ev: Evaluated): (r: seq<Event>)
    ensures |r| <= 1 && NoStatus(r)
    ensures ev.error.Some? ==> r == [ExecutionError(ev.error.value.message, [ev.error.value.message])]
    ensures ev.error.None? ==>
              (|r| == 1 <==> !silent && |AutoRenderResults(ev.values).data| != 0)
    ensures ev.error.None? && |r| == 1 ==> r[0] == ExecuteResult(count, AutoRenderResults(ev.values))
  {
    match ev.error
    case Some(e) => [ExecutionError(e.message, [e.message])]
    case None =>
      var data := AutoRenderResults(ev.values);
      if !silent && |data.data| != 0 then [ExecuteResult(count, data)] else []
  }

  /** After `doEval`: the cell's output, the result or the error, and the reply. */
  function Conclude(count: int, silent: bool, ev: Evaluated, w: World): (r: Handled)
    ensures r.counter == count && NoStatus(r.events)
    ensures r.outcome == if w.replySent then Continue else Fatal
    ensures 1 <= |r.events| <= 3 && r.events[0] == Output(ev.effects)
    ensures w.replySent ==> r.events[|r.events| - 1] == Reply("execute_reply", MapContent(ExecuteReplyContent(count, ev.error)))
    ensures !w.replySent ==> forall i :: 0 <= i < |r.events| ==> !r.events[i].Reply?
    ensures var m := r.events[1..|r.events| - (if w.replySent then 1 else 0)];
            && (ev.error.Some? ==> m == [ExecutionError(ev.error.value.message, [ev.error.value.message])])
            && (ev.error.None? ==> m == if !silent && |AutoRenderResults(ev.values).data| != 0
                                        then [ExecuteResult(count, AutoRenderResults(ev.values))] else [])
  {
    var reply := SendReply(count, w, "execute_reply", MapContent(ExecuteReplyContent(count, ev.error)));
    Handled(count, [Output(ev.effects)] + Published(count, silent, ev) + reply.events, reply.outcome)
  }

  /**
   `handleExecuteRequest` for a well-formed request: count it unless silent, announce the
   input, evaluate with the streams redirected, publish the result or the error, and reply.
   */
  function HandleExecute(k: Kernel, counter: int, req: ExecuteRequest, w: World): (r: Handled)
    ensures r.counter == if req.silent then counter else counter + 1
    ensures NoStatus(r.events)
    ensures |r.events| >= 1 && r.events[0] == ExecuteInput(r.counter, req.code)
    ensures !w.pipesOpen ==> r.events == [ExecuteInput(r.counter, req.code)] && r.outcome == Fatal
    ensures w.pipesOpen ==> r.outcome == (if w.replySent then Continue else Fatal)
    ensures w.pipesOpen ==> |r.events| >= 2 && r.events[1] == Output(DoEval(w.eval, w.os, k.f, req.code).effects)
  {
    var count := if req.silent then counter else counter + 1;
    if !w.pipesOpen then Handled(count, [ExecuteInput(count, req.code)], Fatal)
    else
      var c := Conclude(count, req.silent, DoEval(w.eval, w.os, k.f, req.code), w);
      Handled(count, [ExecuteInput(count, req.code)] + c.events, c.outcome)
  }

  /** The message types `handleShellMsg` tells apart. */
  datatype MsgKind = KernelInfoMsg | IsCompleteMsg | CompleteMsg | ExecuteMsg | ShutdownMsg | OtherMsg

  /** The `switch` on the header's message type. */
  function KindOfMsg(msgType: string): (kind: MsgKind)
    ensures kind == KernelInfoMsg <==> msgType == "kernel_info_request"
    ensures kind == IsCompleteMsg <==> msgType == "is_complete_request"
    ensures kind == CompleteMsg <==> msgType == "complete_request"
    ensures kind == ExecuteMsg <==> msgType == "execute_request"
    ensures kind == ShutdownMsg <==> msgType == "shutdown_request"
  {
    if msgType == "kernel_info_request" then KernelInfoMsg
    else if msgType == "is_complete_request" then IsCompleteMsg
    else if msgType == "complete_request" then CompleteMsg
    else if msgType == "execute_request" then ExecuteMsg
    else if msgType == "shutdown_request" then ShutdownMsg
    else OtherMsg
  }

  /** The message types the kernel answers. */
  predicate IsRequestType(msgType: string) {
    KindOfMsg(msgType) != OtherMsg
  }

  /** Does this message move the execution counter? */
  predicate CountsExecution(msg: Message) {
    KindOfMsg(msg.msgType) == ExecuteMsg
    && ParseExecuteRequest(msg.content).Some? && !ParseExecuteRequest(msg.content).value.silent
  }

  /** The handler the message type selects, without the status around it. */
  function Route(k: Kernel, counter: int, msg: Message, w: World): (r: Handled)
    ensures r.counter == counter + (if CountsExecution(msg) then 1 else 0)
    ensures NoStatus(r.events)
    ensures !IsRequestType(msg.msgType) ==> r == Handled(counter, [], Continue)
  {
    match KindOfMsg(msg.msgType)
    case KernelInfoMsg => HandleKernelInfo(k, counter, w)
    case IsCompleteMsg => HandleIsComplete(counter, msg.content, w)
    case CompleteMsg => HandleComplete(counter, msg.content, w)
    case ExecuteMsg =>
      (match ParseExecuteRequest(msg.content)
       case None => Handled(counter, [], Crash)
       case Some(req) => HandleExecute(k, counter, req, w))
    case ShutdownMsg => HandleShutdown(counter, msg.content, w)
    case OtherMsg => Handled(counter, [], Continue)   // logged as unhandled
  }

  /** Does `idle` still get published? Only a handler that returns or panics runs the deferred call. */
  predicate PublishesIdle(outcome: Outcome) {
    outcome.Continue? || outcome.Crash?
  }

  /** `handleShellMsg`: `busy`, the handler, and the deferred `idle`. */
  function HandleShellMsg(k: Kernel, counter: int, msg: Message, w: World): (r: Handled)
    ensures r.counter == counter + (if CountsExecution(msg) then 1 else 0)
    ensures |r.events| >= 1 && r.events[0] == Status(Busy)
    ensures Statuses(r.events) == [Busy] + (if PublishesIdle(r.outcome) then [Idle] else [])
    ensures PublishesIdle(r.outcome) ==> r.events[|r.events| - 1] == Status(Idle)
    ensures !IsRequestType(msg.msgType) ==>
              r.events == [Status(Busy), Status(Idle)] && r.outcome == Continue
  {
    var mid := Route(k, counter, msg, w);
    var idle := if PublishesIdle(mid.outcome) then [Status(Idle)] else [];
    NoStatusStatuses(mid.events);
    StatusesConcat([Status(Busy)], mid.events);
    StatusesConcat([Status(Busy)] + mid.events, idle);
    Handled(mid.counter, [Status(Busy)] + mid.events + idle, mid.outcome)
  }

  /** The states of the `Status` events, in order. */
  function Statuses(events: seq<Event>): seq<KernelState> {
    if |events| == 0 then []
    else (if events[0].Status? then [events[0].state] else []) + Statuses(events[1..])
  }

  lemma {:induction false} StatusesConcat(a: seq<Event>, b: seq<Event>)
    ensures Statuses(a + b) == Statuses(a) + Statuses(b)
  {
    if |a| != 0 {
      assert (a + b)[1..] == a[1..] + b;
      StatusesConcat(a[1..], b);
    } else {
      assert a + b == b;
    }
  }

  lemma {:induction false} NoStatusStatuses(events: seq<Event>)
    requires NoStatus(events)
    ensures Statuses(events) == []
  {
    if |events| != 0 {
      NoStatusStatuses(events[1..]);
    }
  }

  /** `Reply` events in order. */
  function Replies(events: seq<Event>): seq<Event>
  {
    if |events| == 0 then []
    else (if events[0].Reply? then [events[0]] else []) + Replies(events[1..])
  }

  /** The reply type for each request type. */
  function ReplyType(kind: MsgKind): string {
    match kind
    case KernelInfoMsg => "kernel_info_reply"
    case IsCompleteMsg => "is_complete_reply"
    case CompleteMsg => "complete_reply"
    case ExecuteMsg => "execute_reply"
    case ShutdownMsg => "shutdown_reply"
    case OtherMsg => ""
  }

  /**
   The events after the input, whether or not the reply goes through: the output, at most
   one result or error, and the reply last when it is sent.
   */
  lemma ConcludeOrder(count: int, silent: bool, ev: Evaluated, w: World)
    ensures var e := Conclude(count, silent, ev, w).events;
            var n := |e| - (if w.replySent then 1 else 0);
            && 1 <= n <= 2
            && e[0] == Output(ev.effects)
            && (w.replySent ==> e[|e| - 1] == Reply("execute_reply", MapContent(ExecuteReplyContent(count, ev.error))))
            && (ev.error.Some? ==> n == 2 && e[1] == ExecutionError(ev.error.value.message, [ev.error.value.message]))
            && (ev.error.None? ==> (n == 2 <==> !silent && |AutoRenderResults(ev.values).data| != 0))
            && (ev.error.None? && n == 2 ==> e[1] == ExecuteResult(count, AutoRenderResults(ev.values)))
  {
  }

  /**
   A well-formed `execute_request` whose streams and reply go through: `busy`, the input,
   the output, at most one result or error, the reply carrying the new count, then `idle`.
   */
  lemma ExecuteEventOrder(k: Kernel, counter: int, msg: Message, w: World)
    requires KindOfMsg(msg.msgType) == ExecuteMsg && ParseExecuteRequest(msg.content).Some?
    requires w.pipesOpen && w.replySent
    ensures var r := HandleShellMsg(k, counter, msg, w);
            var req := ParseExecuteRequest(msg.content).value;
            var ev := DoEval(w.eval, w.os, k.f, req.code);
            var e := r.events;
            && r.outcome == Continue
            && r.counter == (if req.silent then counter else counter + 1)
            && e[..2] == [Status(Busy), ExecuteInput(r.counter, req.code)]
            && e[2..|e| - 1] == Conclude(r.counter, req.silent, ev, w).events
            && e[|e| - 1] == Status(Idle)
  {
    var req := ParseExecuteRequest(msg.content).value;
    var mid := HandleExecute(k, counter, req, w);
    assert Route(k, counter, msg, w) == mid;
    var c := Conclude(mid.counter, req.silent, DoEval(w.eval, w.os, k.f, req.code), w);
    var e := [Status(Busy)] + mid.events + [Status(Idle)];
    assert e == [Status(Busy), ExecuteInput(mid.counter, req.code)] + c.events + [Status(Idle)];
  }

  /**
   A well-formed `execute_request` whose reply fails: `busy`, the input, the output and the
   result or error are still published, then the process stops without a reply or `idle`.
   */
  lemma ExecuteReplyFails(k: Kernel, counter: int, msg: Message, w: World)
    requires KindOfMsg(msg.msgType) == ExecuteMsg && ParseExecuteRequest(msg.content).Some?
    requires w.pipesOpen && !w.replySent
    ensures var r := HandleShellMsg(k, counter, msg, w);
            var req := ParseExecuteRequest(msg.content).value;
            var ev := DoEval(w.eval, w.os, k.f, req.code);
            && r.outcome == Fatal
            && r.events == [Status(Busy), ExecuteInput(r.counter, req.code), Output(ev.effects)]
                           + Published(r.counter, req.silent, ev)
  {
    var req := ParseExecuteRequest(msg.content).value;
    var mid := HandleExecute(k, counter, req, w);
    assert Route(k, counter, msg, w) == mid;
    var ev := DoEval(w.eval, w.os, k.f, req.code);
    assert [Status(Busy)] + mid.events
        == [Status(Busy), ExecuteInput(mid.counter, req.code), Output(ev.effects)] + Published(mid.counter, req.silent, ev);
  }

  /** If the standard streams cannot be redirected, the input is announced and the process stops, without `idle`. */
  lemma ExecuteWithoutPipes(k: Kernel, counter: int, msg: Message, w: World)
    requires KindOfMsg(msg.msgType) == ExecuteMsg && ParseExecuteRequest(msg.content).Some?
    requires !w.pipesOpen
    ensures var r := HandleShellMsg(k, counter, msg, w);
            var req := ParseExecuteRequest(msg.content).value;
            r.events == [Status(Busy), ExecuteInput(r.counter, req.code)] && r.outcome == Fatal
  {
    var req := ParseExecuteRequest(msg.content).value;
    assert Route(k, counter, msg, w) == HandleExecute(k, counter, req, w);
  }

  /** A request whose content fails a type assertion crashes after `busy` and `idle`, with no reply and the counter unchanged. */
  lemma MalformedRequestCrashes(k: Kernel, counter: int, msg: Message, w: World)
    requires || (KindOfMsg(msg.msgType) == IsCompleteMsg && StringField(msg.content, "code").None?)
             || (KindOfMsg(msg.msgType) == CompleteMsg && ParseCompleteRequest(msg.content).None?)
             || (KindOfMsg(msg.msgType) == ExecuteMsg && ParseExecuteRequest(msg.content).None?)
             || (KindOfMsg(msg.msgType) == ShutdownMsg && BoolField(msg.content, "restart").None?)
    ensures var r := HandleShellMsg(k, counter, msg, w);
            r == Handled(counter, [Status(Busy), Status(Idle)], Crash)
  {
    assert Route(k, counter, msg, w) == Handled(counter, [], Crash);
  }

  /**
   Every request the kernel answers gets exactly one reply, of the matching type, unless the
   handler crashed or the reply failed; nothing else gets one.
   */
  lemma ReplyOnce(k: Kernel, counter: int, msg: Message, w: World)
    ensures var r := HandleShellMsg(k, counter, msg, w);
            var replies := Replies(r.events);
            && |replies| == (if IsRequestType(msg.msgType) && (r.outcome.Continue? || r.outcome.Exit?) then 1 else 0)
            && (forall i :: 0 <= i < |replies| ==> replies[i].Reply? && replies[i].msgType == ReplyType(KindOfMsg(msg.msgType)))
  {
    var mid := Route(k, counter, msg, w);
    var idle := if PublishesIdle(mid.outcome) then [Status(Idle)] else [];
    RepliesConcat([Status(Busy)], mid.events);
    RepliesConcat([Status(Busy)] + mid.events, idle);
    assert Replies(idle) == [];
    RouteReplies(k, counter, msg, w);
  }

  /** The handler's replies: one of the matching type when it returns or exits, none otherwise. */
  lemma RouteReplies(k: Kernel, counter: int, msg: Message, w: World)
    ensures var r := Route(k, counter, msg, w);
            Replies(r.events) == if IsRequestType(msg.msgType) && (r.outcome.Continue? || r.outcome.Exit?)
                                 then [r.events[|r.events| - 1]] else []
    ensures var r := Route(k, counter, msg, w);
            |Replies(r.events)| == 1 ==> Replies(r.events)[0].Reply? && Replies(r.events)[0].msgType == ReplyType(KindOfMsg(msg.msgType))
  {
    if KindOfMsg(msg.msgType) == ExecuteMsg && ParseExecuteRequest(msg.content).Some? {
      ExecuteReplies(k, counter, ParseExecuteRequest(msg.content).value, w);
    }
  }

  /** `handleExecuteRequest` replies once, last, when the streams and the reply go through. */
  lemma ExecuteReplies(k: Kernel, counter: int, req: ExecuteRequest, w: World)
    ensures var r := HandleExecute(k, counter, req, w);
            Replies(r.events) == if r.outcome.Continue? then [r.events[|r.events| - 1]] else []
    ensures var r := HandleExecute(k, counter, req, w);
            r.outcome.Continue? ==> r.events[|r.events| - 1].Reply? && r.events[|r.events| - 1].msgType == "execute_reply"
  {
    var r := HandleExecute(k, counter, req, w);
    if w.pipesOpen {
      var ev := DoEval(w.eval, w.os, k.f, req.code);
      ConcludeReplies(r.counter, req.silent, ev, w);
      RepliesConcat([ExecuteInput(r.counter, req.code)], Conclude(r.counter, req.silent, ev, w).events);
    } else {
      assert Replies(r.events) == Replies(r.events[1..]);
    }
  }

  lemma ConcludeReplies(count: int, silent: bool, ev: Evaluated, w: World)
    ensures var c := Conclude(count, silent, ev, w);
            Replies(c.events) == if w.replySent then [c.events[|c.events| - 1]] else []
    ensures var c := Conclude(count, silent, ev, w);
            w.replySent ==> c.events[|c.events| - 1].Reply? && c.events[|c.events| - 1].msgType == "execute_reply"
  {
    var reply := SendReply(count, w, "execute_reply", MapContent(ExecuteReplyContent(count, ev.error)));
    var p := Published(count, silent, ev);
    RepliesConcat([Output(ev.effects)] + p, reply.events);
    RepliesConcat([Output(ev.effects)], p);
    assert Replies([Output(ev.effects)]) == [];
    assert Replies(p) == [] by {
      if |p| == 1 { assert Replies(p) == Replies(p[1..]); }
    }
    assert Replies(reply.events) == reply.events;
  }

  lemma {:induction false} RepliesConcat(a: seq<Event>, b: seq<Event>)
    ensures Replies(a + b) == Replies(a) + Replies(b)
  {
    if |a| != 0 {
      assert (a + b)[1..] == a[1..] + b;
      RepliesConcat(a[1..], b);
    } else {
      assert a + b == b;
    }
  }
}

=== FILE: session.dfy ===
/**
 The receive loop of `RunKernel` (kernel.go), reduced to its sequential core: decoded
 shell and control messages are handled one after another, the execution counter is
 threaded through, and the loop ends with the process once a handler exits, fails
 fatally or panics.
 */
module Session {
  import opened Kernel

  /** After a run of the loop: the counter, every event in order, how many messages were handled, and how it ended. */
  datatype Session = Session(counter: int, events: seq<Event>, handled: nat, outcome: Outcome)

  /** Each message with the world it is handled in, in arrival order. */
  type Inbox = seq<(Message, World)>

  /** What the loop calls for each message: the counter before it, the message and its world. */
  type Handler = (int, Message, World) -> Handled

  /**
   Reference: every message of `msgs` handled in order, the counter threaded through,
   whatever the outcomes; the outcome is that of the last message.
   */
  function Replay(handle: Handler, counter: int, msgs: Inbox): (s: Session)
    ensures s.handled == |msgs|
    decreases |msgs|
  {
    if |msgs| == 0 then Session(counter, [], 0, Continue)
    else
      var h := handle(counter, msgs[0].0, msgs[0].1);
      var rest := Replay(handle, h.counter, msgs[1..]);
      Session(rest.counter, h.events + rest.events, rest.handled + 1, if |msgs| == 1 then h.outcome else rest.outcome)
  }

  /** Replaying a non-empty prefix: its first message, then the replay of the rest of the prefix. */
  lemma ReplayPrefix(handle: Handler, counter: int, inbox: Inbox, n: nat)
    requires 1 <= n <= |inbox|
    ensures var h := handle(counter, inbox[0].0, inbox[0].1);
      var rest := Replay(handle, h.counter, inbox[1..][..n - 1]);
      Replay(handle, counter, inbox[..n])
        == Session(rest.counter, h.events + rest.events, n, if n == 1 then h.outcome else rest.outcome)
  {
    assert inbox[..n][0] == inbox[0];
    assert inbox[..n][1..] == inbox[1..][..n - 1];
  }

  /** `ReplayPrefix` for every prefix length at once. */
  lemma ReplayPrefixes(handle: Handler, counter: int, inbox: Inbox)
    requires |inbox| != 0
    ensures var h := handle(counter, inbox[0].0, inbox[0].1);
      forall n {:trigger inbox[..n]} :: 1 <= n <= |inbox| ==>
        var rest := Replay(handle, h.counter, inbox[1..][..n - 1]);
        Replay(handle, counter, inbox[..n])
          == Session(rest.counter, h.events + rest.events, n, if n == 1 then h.outcome else rest.outcome)
  {
    forall n: nat | 1 <= n <= |inbox| {
      ReplayPrefix(handle, counter, inbox, n);
    }
  }

  /** Handle the inbox in order, stopping after the first message that does not let the loop go on. */
  function Serve(handle: Handler, counter: int, inbox: Inbox): (s: Session)
    ensures s.handled <= |inbox|
    ensures |inbox| != 0 ==> s.handled >= 1
    ensures s.outcome.Continue? ==> s.handled == |inbox|
    ensures s.handled == 0 ==> s == Session(counter, [], 0, Continue)
    decreases |inbox|
  {
    if |inbox| == 0 then Session(counter, [], 0, Continue)
    else
      var h := handle(counter, inbox[0].0, inbox[0].1);
      if !h.outcome.Continue? then Session(h.counter, h.events, 1, h.outcome)
      else
        var rest := Serve(handle, h.counter, inbox[1..]);
        Session(rest.counter, h.events + rest.events, rest.handled + 1, rest.outcome)
  }

  /**
   What `Serve` computes, against the reference: the replay of the messages up to and
   including the first one that stops the loop, every message before it letting the loop go on.
   */
  lemma {:induction false} ServeReplays(handle: Handler, counter: int, inbox: Inbox)
    ensures var s := Serve(handle, counter, inbox);
      && s == Replay(handle, counter, inbox[..s.handled])
      && forall n {:trigger inbox[..n]} :: 1 <= n < s.handled ==> Replay(handle, counter, inbox[..n]).outcome.Continue?
    decreases |inbox|
  {
    if |inbox| != 0 {
      var h := handle(counter, inbox[0].0, inbox[0].1);
      ReplayPrefixes(handle, counter, inbox);
      if !h.outcome.Continue? {
        assert Replay(handle, h.counter, inbox[1..][..0]) == Session(h.counter, [], 0, Continue);
        assert h.events + [] == h.events;
      } else {
        ServeReplays(handle, h.counter, inbox[1..]);
      }
    }
  }


  /** The kernel's loop: every message goes to `handleShellMsg`, so a run that handles anything starts with `busy`. */
  function RunKernel(k: Kernel, counter: int, inbox: Inbox): (s: Session)
    ensures |inbox| != 0 ==> s.handled >= 1 && |s.events| >= 1 && s.events[0] == Status(Busy)
  {
    var handle: Handler := (c, m, w) => HandleShellMsg(k, c, m, w);
    var s := Serve(handle, counter, inbox);
    if |inbox| != 0 then
      var h := HandleShellMsg(k, counter, inbox[0].0, inbox[0].1);
      assert handle(counter, inbox[0].0, inbox[0].1) == h;
      assert s.events[..|h.events|] == h.events;
      s
    else s
  }

  /** How many of the messages move the execution counter. */
  function Executions(inbox: Inbox): nat {
    if |inbox| == 0 then 0
    else (if CountsExecution(inbox[0].0) then 1 else 0) + Executions(inbox[1..])
  }

  /** `busy` and `idle`, `n` times over. */
  function Rounds(n: nat): seq<KernelState> {
    if n == 0 then [] else [Busy, Idle] + Rounds(n - 1)
  }

  /** A handler that moves the counter exactly for the counted executions. */
  ghost predicate CountsExecutions(handle: Handler) {
    forall c, m, w :: handle(c, m, w).counter == c + (if CountsExecution(m) then 1 else 0)
  }

  /** A handler that publishes `busy`, then `idle` unless the process ends without it. */
  ghost predicate Brackets(handle: Handler) {
    forall c, m, w :: Statuses(handle(c, m, w).events)
                      == [Busy] + (if PublishesIdle(handle(c, m, w).outcome) then [Idle] else [])
  }

  lemma {:induction false} ServeCounter(handle: Handler, counter: int, inbox: Inbox)
    requires CountsExecutions(handle)
    ensures var s := Serve(handle, counter, inbox);
            s.counter == counter + Executions(inbox[..s.handled])
    decreases |inbox|
  {
    var s := Serve(handle, counter, inbox);
    if |inbox| != 0 {
      var h := handle(counter, inbox[0].0, inbox[0].1);
      if !h.outcome.Continue? {
        assert inbox[..1][1..] == [];
      } else {
        var rest := Serve(handle, h.counter, inbox[1..]);
        ServeCounter(handle, h.counter, inbox[1..]);
        assert inbox[..s.handled][1..] == inbox[1..][..rest.handled];
      }
    }
  }

  lemma {:induction false} ServeStatuses(handle: Handler, counter: int, inbox: Inbox)
    requires Brackets(handle)
    ensures var s := Serve(handle, counter, inbox);
            Statuses(s.events) == if PublishesIdle(s.outcome) then Rounds(s.handled) else Rounds(s.handled - 1) + [Busy]
    decreases |inbox|
  {
    if |inbox| != 0 {
      var h := handle(counter, inbox[0].0, inbox[0].1);
      var first := [Busy] + (if PublishesIdle(h.outcome) then [Idle] else []);
      assert Statuses(h.events) == first;
      if h.outcome.Continue? {
        var rest := Serve(handle, h.counter, inbox[1..]);
        ServeStatuses(handle, h.counter, inbox[1..]);
        StatusesConcat(h.events, rest.events);
        assert Serve(handle, counter, inbox) == Session(rest.counter, h.events + rest.events, rest.handled + 1, rest.outcome);
        if !PublishesIdle(rest.outcome) {
          assert Rounds(rest.handled) == [Busy, Idle] + Rounds(rest.handled - 1);
        }
      } else {
        assert Serve(handle, counter, inbox) == Session(h.counter, h.events, 1, h.outcome);
        assert Rounds(1) == [Busy, Idle] + Rounds(0);
      }
    }
  }

  /** The counter grows by one for each handled, well-formed, non-silent `execute_request`, and for nothing else. */
  lemma RunKernelCounter(k: Kernel, counter: int, inbox: Inbox)
    ensures var s := RunKernel(k, counter, inbox);
            s.counter == counter + Executions(inbox[..s.handled])
  {
    ServeCounter((c, m, w) => HandleShellMsg(k, c, m, w), counter, inbox);
  }

  /**
   The statuses strictly alternate: every handled message is bracketed by `busy` and `idle`,
   except that a handler that exits or fails fatally leaves its `busy` unanswered.
   */
  lemma RunKernelStatuses(k: Kernel, counter: int, inbox: Inbox)
    ensures var s := RunKernel(k, counter, inbox);
            Statuses(s.events) == if PublishesIdle(s.outcome) then Rounds(s.handled) else Rounds(s.handled - 1) + [Busy]
  {
    var handle: Handler := (c, m, w) => HandleShellMsg(k, c, m, w);
    forall c, m, w
      ensures Statuses(handle(c, m, w).events) == [Busy] + (if PublishesIdle(handle(c, m, w).outcome) then [Idle] else [])
    {
      var h := HandleShellMsg(k, c, m, w);
      assert handle(c, m, w) == h;
    }
    ServeStatuses(handle, counter, inbox);
  }

  /** A freshly started kernel's counter is the number of executions it has served. */
  lemma FreshKernelCounter(k: Kernel, inbox: Inbox)
    ensures var s := RunKernel(k, InitialCounter, inbox);
            s.counter == Executions(inbox[..s.handled])
  {
    RunKernelCounter(k, InitialCounter, inbox);
  }

  /** A message of an unknown type changes nothing but the status trace: the loop goes on with the same counter. */
  lemma UnknownMessagePassesThrough(k: Kernel, counter: int, m: Message, w: World, inbox: Inbox)
    requires !IsRequestType(m.msgType)
    ensures var s := RunKernel(k, counter, [(m, w)] + inbox);
            var t := RunKernel(k, counter, inbox);
            s == Session(t.counter, [Status(Busy), Status(Idle)] + t.events, t.handled + 1, t.outcome)
  {
    assert ([(m, w)] + inbox)[1..] == inbox;
  }
}

=== FILE: special.dfy ===
/**
 The special-command preprocessor of kernel.go: leading `%` directives and
 `$`/`!` shell escapes are run and blanked out before a cell reaches the
 interpreter. The operating system is an input (`Os`); what the commands do
 is recorded as an ordered trace of effects.
 */
module Special {
  import opened Base
  import opened GoStrings
  import opened Values

  /** The text `%help` writes, and that an unknown directive's error carries. */
  const HelpText := "\navailable special commands (%):\n%cd [path]\n%help\n\nexecute shell commands ($/!): $command [args...]\nexample:\n$ls -l\n"

  /** A special line, parsed. */
  datatype Command =
    | ChangeDirHome                   // `%cd` with no argument
    | ChangeDir(path: string)         // `%cd path`
    | ShowHelp                        // `%help`
    | UnknownDirective(line: string)  // any other `%` line
    | NoShellCommand                  // `$` or `!` followed only by white space
    | ShellCommand(argv: seq<string>, commandLine: string)

  /** What a command did to the world, in the order it happened. */
  datatype Effect =
    | ChangedDir(path: string)
    | WroteStdout(text: string)
    | Spawned(argv: seq<string>)

  datatype HomeDir = Home(path: string) | HomeUnavailable(cause: string)

  /** How running an external command went, stage by stage. */
  datatype ShellRun =
    | Exited
    | StdoutPipeFailed(cause: string)
    | StderrPipeFailed(cause: string)
    | StartFailed(cause: string)
    | WaitFailed(cause: string)

  /** The operating system as the commands see it: `os.UserHomeDir`, `os.Chdir` (error text or none), `exec.Command`. */
  datatype Os = Os(home: HomeDir, chdir: string -> Option<string>, run: seq<string> -> ShellRun)

  // ---------------------------------------------------------------------------
  // Parsing one line

  /** `Cut` on the directive forms `ParseDirective` tells apart. */
  lemma CutDirectiveForms(line: string)
    ensures line == "%cd" || line == "%help" ==> Cut(line, ' ') == (line, None)
    ensures HasPrefix(line, "%cd ") ==> Cut(line, ' ') == ("%cd", Some(line[4..]))
    ensures HasPrefix(line, "%help ") ==> Cut(line, ' ') == ("%help", Some(line[6..]))
  {
    if line == "%cd" || line == "%help" {
      CutNone(line, ' ');
    }
    if HasPrefix(line, "%cd ") {
      CutAfterWord(line, "%cd");
    }
    if HasPrefix(line, "%help ") {
      CutAfterWord(line, "%help");
    }
  }

  /** A line starting with a space-free word and a space is cut right after that word. */
  lemma CutAfterWord(line: string, word: string)
    requires ' ' !in word && HasPrefix(line, word + " ")
    ensures Cut(line, ' ') == (word, Some(line[|word| + 1..]))
  {
    var n := |word|;
    assert line[..n + 1] == word + " ";
    assert line[..n] == line[..n + 1][..n] == word;
    assert line[n] == line[..n + 1][n] == ' ';
    CutAt(line, ' ', n);
  }

  /** The head `Cut` finds is the whole line, or is followed by a space. */
  lemma CutHead(line: string)
    ensures Cut(line, ' ').1.None? ==> line == Cut(line, ' ').0
    ensures Cut(line, ' ').1.Some? ==> HasPrefix(line, Cut(line, ' ').0 + " ")
  {
    var (cmd, rest) := Cut(line, ' ');
    if rest.Some? {
      assert line == (cmd + " ") + rest.value;
      assert line[..|cmd + " "|] == cmd + " ";
    }
  }

  /** `%cd`, `%help` or another directive, split at the first space into command and argument. */
  function ParseDirective(line: string): (r: Command)
    ensures line == "%cd" ==> r == ChangeDirHome
    ensures HasPrefix(line, "%cd ") ==> r == (if line == "%cd " then ChangeDirHome else ChangeDir(line[4..]))
    ensures (line == "%help" || HasPrefix(line, "%help ")) ==> r == ShowHelp
    ensures !(line == "%cd" || HasPrefix(line, "%cd ") || line == "%help" || HasPrefix(line, "%help "))
            ==> r == UnknownDirective(line)
  {
    CutDirectiveForms(line);
    CutHead(line);
    var (cmd, rest) := Cut(line, ' ');
    var arg := match rest case Some(a) => a case None => "";
    if cmd == "%cd" then
      if arg == "" then ChangeDirHome else ChangeDir(arg)
    else if cmd == "%help" then ShowHelp
    else UnknownDirective(line)
  }

  /** `$cmd args…` or `!cmd args…`: the rest of the line split into white-space separated fields. */
  function ParseShell(line: string): (r: Command)
    requires |line| >= 1
    ensures r == NoShellCommand <==> AllSpace(line[1..])
    ensures r.ShellCommand? ==> r.argv == Fields(line[1..]) && |r.argv| >= 1 && r.commandLine == line[1..]
    ensures !r.ChangeDirHome? && !r.ChangeDir? && !r.ShowHelp? && !r.UnknownDirective?
  {
    var args := Fields(line[1..]);
    if |args| == 0 then NoShellCommand else ShellCommand(args, line[1..])
  }

  /** Runs of spaces and tabs between the arguments of a shell escape all count as one separator. */
  lemma ShellArgsSkipRuns()
    ensures ParseShell("$ ls  -l\t") == ShellCommand(["ls", "-l"], " ls  -l\t")
  {
    var gaps := [" ", "  ", "\t"];
    assert Spread(["ls", "-l"], gaps) == " ls  -l\t";
    assert "$ ls  -l\t"[1..] == " ls  -l\t";
    FieldsSpread(["ls", "-l"], gaps);
  }

  /** The first non-space character of a line, if any. */
  function LeadingChar(line: string): Option<char>
  {
    if |line| == 0 then None
    else if IsSpace(line[0]) then LeadingChar(line[1..])
    else Some(line[0])
  }

  /** The first non-space character is the first character of the trimmed line. */
  lemma {:induction false} LeadingCharIsTrimmedHead(line: string)
    ensures var t := TrimSpace(line);
      (|t| == 0 <==> LeadingChar(line).None?) && (|t| != 0 ==> LeadingChar(line) == Some(t[0]))
  {
    var t := TrimSpace(line);
    if |line| != 0 {
      LeadingCharIsTrimmedHead(line[1..]);
      if IsSpace(line[0]) {
        assert TrimLeft(line, WhiteSpace) == TrimLeft(line[1..], WhiteSpace);
      } else {
        assert TrimLeft(line, WhiteSpace) == line;
        assert t[0] == line[0];
      }
    }
  }

  /** How the preprocessor sees one line of a cell: empty once trimmed, a special line, or ordinary code. */
  datatype LineKind = Blank | SpecialLine | Ordinary

  /** The test of `evalSpecialCommands` on the trimmed line, stated through its first character. */
  function KindOf(line: string): LineKind {
    match LeadingChar(line)
    case None => Blank
    case Some(c) => if c == '%' || c == '$' || c == '!' then SpecialLine else Ordinary
  }

  /** The command a special line stands for: its trimmed text, parsed by its first character. */
  function CommandOf(line: string): Command
    requires KindOf(line) == SpecialLine
  {
    LeadingCharIsTrimmedHead(line);
    var t := TrimSpace(line);
    if t[0] == '%' then ParseDirective(t) else ParseShell(t)
  }

  // ---------------------------------------------------------------------------
  // The filter, without running anything

  /** Where processing stops: the first ordinary line, or the end. */
  function StopIndex(lines: seq<string>): (k: nat)
    ensures k <= |lines|
    ensures forall i :: 0 <= i < k ==> KindOf(lines[i]) != Ordinary
    ensures k < |lines| ==> KindOf(lines[k]) == Ordinary
  {
    if |lines| == 0 || KindOf(lines[0]) == Ordinary then 0
    else
      var k := StopIndex(lines[1..]);
      assert forall i :: 1 <= i <= k && i < |lines| ==> lines[i] == lines[1..][i - 1];
      1 + k
  }

  /** The commands of the special lines, one per line, in line order. */
  function CommandsIn(lines: seq<string>): seq<Command>
  {
    if |lines| == 0 then []
    else (if KindOf(lines[0]) == SpecialLine then [CommandOf(lines[0])] else []) + CommandsIn(lines[1..])
  }

  /**
   The loop of `evalSpecialCommands` with the command execution left out: special lines
   before the first ordinary line become empty; nothing else changes.
   */
  function FilterLines(lines: seq<string>): (r: seq<string>)
    ensures |r| == |lines|
    ensures forall i :: StopIndex(lines) <= i < |lines| ==> r[i] == lines[i]
    ensures forall i :: 0 <= i < StopIndex(lines) ==>
      r[i] == (if KindOf(lines[i]) == SpecialLine then "" else lines[i])
  {
    if |lines| == 0 then []
    else
      match KindOf(lines[0])
      case Ordinary => lines
      case Blank =>
        var rest := FilterLines(lines[1..]);
        FilterStep(lines, rest);
        [lines[0]] + rest
      case SpecialLine =>
        var rest := FilterLines(lines[1..]);
        FilterStep(lines, rest);
        [""] + rest
  }

  /** A blank or special first line, put in front of the filtered rest, keeps the filter's shape. */
  lemma FilterStep(lines: seq<string>, rest: seq<string>)
    requires |lines| != 0 && KindOf(lines[0]) != Ordinary
    requires |rest| == |lines| - 1
    requires forall i :: StopIndex(lines[1..]) <= i < |rest| ==> rest[i] == lines[1..][i]
    requires forall i :: 0 <= i < StopIndex(lines[1..]) ==>
      rest[i] == (if KindOf(lines[1..][i]) == SpecialLine then "" else lines[1..][i])
    ensures var r := [if KindOf(lines[0]) == SpecialLine then "" else lines[0]] + rest;
      && (forall i :: StopIndex(lines) <= i < |lines| ==> r[i] == lines[i])
      && (forall i :: 0 <= i < StopIndex(lines) ==> r[i] == (if KindOf(lines[i]) == SpecialLine then "" else lines[i]))
  {
    assert StopIndex(lines) == 1 + StopIndex(lines[1..]);
    var r := [if KindOf(lines[0]) == SpecialLine then "" else lines[0]] + rest;
    assert forall i :: 1 <= i < |lines| ==> r[i] == rest[i - 1] && lines[i] == lines[1..][i - 1];
  }

  /** The commands the filter finds: those of the special lines before the first ordinary line. */
  function FilterCommands(lines: seq<string>): seq<Command>
  {
    CommandsIn(lines[..StopIndex(lines)])
  }

  function Lines(code: string): seq<string> {
    Split(code, '\n')
  }

  /** The text `evalSpecialCommands` returns. */
  function FilterText(code: string): string {
    Join(FilterLines(Lines(code)), '\n')
  }

  /** The commands `evalSpecialCommands` runs, one per blanked line, in line order. */
  function Commands(code: string): seq<Command> {
    FilterCommands(Lines(code))
  }

  /** The filter keeps the number of lines: blanked lines stay, as empty lines. */
  lemma FilterKeepsLines(code: string)
    ensures Lines(FilterText(code)) == FilterLines(Lines(code))
    ensures |Lines(FilterText(code))| == |Lines(code)|
  {
    var lines := Lines(code);
    var out := FilterLines(lines);
    forall i | 0 <= i < |out| ensures '\n' !in out[i] {
      assert out[i] == "" || out[i] == lines[i];
    }
    SplitJoin(out, '\n');
  }

  /** Filtering already-filtered lines changes nothing. */
  lemma {:induction false} FilterLinesIdempotent(lines: seq<string>)
    ensures FilterLines(FilterLines(lines)) == FilterLines(lines)
  {
    if |lines| != 0 {
      var rest := FilterLines(lines[1..]);
      FilterLinesIdempotent(lines[1..]);
      match KindOf(lines[0])
      case Ordinary =>
      case Blank =>
        assert ([lines[0]] + rest)[1..] == rest;
      case SpecialLine =>
        assert KindOf("") == Blank;
        assert ([""] + rest)[1..] == rest;
    }
  }

  /** Running the filter twice gives the same text as running it once. */
  lemma FilterIdempotent(code: string)
    ensures FilterText(FilterText(code)) == FilterText(code)
  {
    FilterKeepsLines(code);
    FilterLinesIdempotent(Lines(code));
  }

  /** The filter leaves a cell unchanged exactly when no special line precedes its first ordinary line. */
  lemma FilterUnchangedIff(code: string)
    ensures FilterText(code) == code <==>
      forall i :: 0 <= i < StopIndex(Lines(code)) ==> KindOf(Lines(code)[i]) != SpecialLine
  {
    var lines := Lines(code);
    var out := FilterLines(lines);
    JoinSplit(code, '\n');
    FilterKeepsLines(code);
    if forall i :: 0 <= i < StopIndex(lines) ==> KindOf(lines[i]) != SpecialLine {
      assert out == lines;
    }
    if FilterText(code) == code {
      assert out == lines;
      forall i | 0 <= i < StopIndex(lines) ensures KindOf(lines[i]) != SpecialLine {
        assert KindOf("") == Blank;
        assert out[i] == lines[i];
      }
    }
  }

  // ---------------------------------------------------------------------------
  // Running commands

  /** The outcome of running commands: what happened, and the error a command panicked with, if one did. */
  datatype CommandRun = CommandRun(effects: seq<Effect>, fault: Option<Error>)

  /** Changing to `path`, with `os.Chdir`'s failure turned into the error `%cd` panics with. */
  function ChangeDirTo(os: Os, f: Foreign, path: string): (r: CommandRun)
    ensures r.fault.None? <==> os.chdir(path).None?
    ensures r.fault.None? ==> r.effects == [ChangedDir(path)]
    ensures r.fault.Some? ==> r.effects == []
  {
    match os.chdir(path)
    case None => CommandRun([ChangedDir(path)], None)
    case Some(cause) =>
      CommandRun([], Some(Error("error setting current directory to " + f.quote(path) + ": " + cause)))
  }

  /** `evalSpecialCommand` and `evalShellCommand` after parsing: one command against the operating system. */
  function RunCommand(os: Os, f: Foreign, c: Command): (r: CommandRun)
    ensures |r.effects| <= 1
    ensures c == ShowHelp ==> r == CommandRun([WroteStdout(HelpText)], None)
    ensures c == NoShellCommand ==> r == CommandRun([], None)
    ensures c.UnknownDirective? ==> r.effects == [] && r.fault.Some?
    ensures c == ChangeDirHome && os.home.Home? ==> r == ChangeDirTo(os, f, os.home.path)
    ensures c == ChangeDirHome && os.home.HomeUnavailable? ==> r.effects == [] && r.fault.Some?
    ensures c.ShellCommand? ==> (r.fault.None? <==> os.run(c.argv) == Exited)
    ensures c.ChangeDir? ==> r == ChangeDirTo(os, f, c.path)
    ensures c.ShellCommand? && os.run(c.argv) == Exited ==> r == CommandRun([Spawned(c.argv)], None)
    ensures c.ShellCommand? ==> (r.effects == [Spawned(c.argv)] <==> os.run(c.argv).Exited? || os.run(c.argv).WaitFailed?)
    ensures c.ShellCommand? && !(os.run(c.argv).Exited? || os.run(c.argv).WaitFailed?) ==> r.effects == []
  {
    match c
    case ChangeDirHome =>
      (match os.home
       case HomeUnavailable(cause) => CommandRun([], Some(Error("error getting user home directory: " + cause)))
       case Home(h) => ChangeDirTo(os, f, h))
    case ChangeDir(p) => ChangeDirTo(os, f, p)
    case ShowHelp => CommandRun([WroteStdout(HelpText)], None)
    case UnknownDirective(line) =>
      CommandRun([], Some(Error("unknown special command: " + f.quote(line) + "\n" + HelpText)))
    case NoShellCommand => CommandRun([], None)
    case ShellCommand(argv, commandLine) =>
      match os.run(argv)
      case Exited => CommandRun([Spawned(argv)], None)
      case StdoutPipeFailed(cause) => CommandRun([], Some(Error("Command.StdoutPipe() failed: " + cause)))
      case StderrPipeFailed(cause) => CommandRun([], Some(Error("Command.StderrPipe() failed: " + cause)))
      case StartFailed(cause) =>
        CommandRun([], Some(Error("error starting command '" + commandLine + "': " + cause)))
      case WaitFailed(cause) =>
        CommandRun([Spawned(argv)], Some(Error("error waiting for command '" + commandLine + "': " + cause)))
  }

  /** Reference definition: run commands in order, stopping at the first that panics. */
  function RunCommands(os: Os, f: Foreign, cmds: seq<Command>): CommandRun
  {
    if |cmds| == 0 then CommandRun([], None)
    else
      var first := RunCommand(os, f, cmds[0]);
      if first.fault.Some? then first
      else
        var rest := RunCommands(os, f, cmds[1..]);
        CommandRun(first.effects + rest.effects, rest.fault)
  }

  /** Either the lines to evaluate (or the text) and what the commands did, or the panic that stopped them. */
  datatype Run<T> = Done(value: T, effects: seq<Effect>) | Aborted(fault: Error, effects: seq<Effect>)

  /** The loop of `evalSpecialCommands` as written: each special line is run as soon as it is met. */
  function EvalSpecialLines(os: Os, f: Foreign, lines: seq<string>): (r: Run<seq<string>>)
    ensures r.Done? ==> |r.value| == |lines|
    ensures |r.effects| <= |lines|
  {
    if |lines| == 0 then Done([], [])
    else
      match KindOf(lines[0])
      case Ordinary => Done(lines, [])
      case Blank =>
        (match EvalSpecialLines(os, f, lines[1..])
         case Done(rest, effects) => Done([lines[0]] + rest, effects)
         case Aborted(e, effects) => Aborted(e, effects))
      case SpecialLine =>
        var run := RunCommand(os, f, CommandOf(lines[0]));
        if run.fault.Some? then Aborted(run.fault.value, run.effects)
        else
          match EvalSpecialLines(os, f, lines[1..])
          case Done(rest, effects) => Done([""] + rest, run.effects + effects)
          case Aborted(e, effects) => Aborted(e, run.effects + effects)
  }

  /** What filtering first and then running the found commands in order yields. */
  function FilterThenRun(os: Os, f: Foreign, lines: seq<string>): Run<seq<string>>
  {
    var run := RunCommands(os, f, FilterCommands(lines));
    if run.fault.None? then Done(FilterLines(lines), run.effects) else Aborted(run.fault.value, run.effects)
  }

  /** The commands found after a non-ordinary first line are its own (if special) and those of the rest. */
  lemma FilterCommandsStep(lines: seq<string>)
    requires |lines| != 0 && KindOf(lines[0]) != Ordinary
    ensures FilterCommands(lines)
      == (if KindOf(lines[0]) == SpecialLine then [CommandOf(lines[0])] else []) + FilterCommands(lines[1..])
  {
    assert lines[..StopIndex(lines)][1..] == lines[1..][..StopIndex(lines[1..])];
  }

  /** The inductive step of `EvalSpecialLinesIsFilterThenRun` for a special first line. */
  lemma SpecialLineStep(os: Os, f: Foreign, lines: seq<string>)
    requires |lines| != 0 && KindOf(lines[0]) == SpecialLine
    requires EvalSpecialLines(os, f, lines[1..]) == FilterThenRun(os, f, lines[1..])
    ensures EvalSpecialLines(os, f, lines) == FilterThenRun(os, f, lines)
  {
    var c := CommandOf(lines[0]);
    var first := RunCommand(os, f, c);
    var cmds := FilterCommands(lines);
    FilterCommandsStep(lines);
    assert cmds[0] == c && cmds[1..] == FilterCommands(lines[1..]);
    assert FilterLines(lines) == [""] + FilterLines(lines[1..]);
    if first.fault.None? {
      var rest := RunCommands(os, f, cmds[1..]);
      assert RunCommands(os, f, cmds) == CommandRun(first.effects + rest.effects, rest.fault);
    }
  }

  /** The inductive step of `EvalSpecialLinesIsFilterThenRun` for a blank first line. */
  lemma BlankLineStep(os: Os, f: Foreign, lines: seq<string>)
    requires |lines| != 0 && KindOf(lines[0]) == Blank
    requires EvalSpecialLines(os, f, lines[1..]) == FilterThenRun(os, f, lines[1..])
    ensures EvalSpecialLines(os, f, lines) == FilterThenRun(os, f, lines)
  {
    FilterCommandsStep(lines);
    assert FilterCommands(lines) == FilterCommands(lines[1..]);
    assert FilterLines(lines) == [lines[0]] + FilterLines(lines[1..]);
  }

  /** Running each line as it is met is the same as filtering first and then running the commands in order. */
  lemma {:induction false} EvalSpecialLinesIsFilterThenRun(os: Os, f: Foreign, lines: seq<string>)
    ensures EvalSpecialLines(os, f, lines) == FilterThenRun(os, f, lines)
  {
    if |lines| == 0 {
    } else if KindOf(lines[0]) == Ordinary {
      assert StopIndex(lines) == 0;
      assert FilterCommands(lines) == [];
    } else {
      EvalSpecialLinesIsFilterThenRun(os, f, lines[1..]);
      if KindOf(lines[0]) == SpecialLine {
        SpecialLineStep(os, f, lines);
      } else {
        BlankLineStep(os, f, lines);
      }
    }
  }

  /** `evalSpecialCommands`: run the special lines of a cell and return it with those lines blanked. */
  function EvalSpecialCommands(os: Os, f: Foreign, code: string): (r: Run<string>)
    ensures var run := RunCommands(os, f, Commands(code));
      && (r.Done? <==> run.fault.None?)
      && r.effects == run.effects
      && (r.Aborted? ==> r.fault == run.fault.value)
    ensures r.Done? ==> r.value == FilterText(code)
  {
    EvalSpecialLinesIsFilterThenRun(os, f, Lines(code));
    match EvalSpecialLines(os, f, Lines(code))
    case Done(lines, effects) => Done(Join(lines, '\n'), effects)
    case Aborted(e, effects) => Aborted(e, effects)
  }

  /** A cell whose only line is `%help` writes the help text and leaves an empty cell. */
  lemma HelpCellWritesHelp(os: Os, f: Foreign)
    ensures EvalSpecialCommands(os, f, "%help") == Done("", [WroteStdout(HelpText)])
  {
    HelpLineIsCommand();
    HelpLineRuns(os, f);
    assert Join([""], '\n') == "";
  }

  /** The cell `%help` is the one line `%help`, which is the help directive. */
  lemma HelpLineIsCommand()
    ensures Lines("%help") == ["%help"]
    ensures KindOf("%help") == SpecialLine && CommandOf("%help") == ShowHelp
  {
    SplitWhole("%help", '\n');
    HelpLineKind();
  }

  lemma HelpLineKind()
    ensures KindOf("%help") == SpecialLine && CommandOf("%help") == ShowHelp
  {
    assert LeadingChar("%help") == Some('%');
    LeadingCharIsTrimmedHead("%help");
    assert TrimSpace("%help") == "%help";
  }

  /** Running the line `%help` writes the help text and blanks the line. */
  lemma HelpLineRuns(os: Os, f: Foreign)
    requires KindOf("%help") == SpecialLine && CommandOf("%help") == ShowHelp
    ensures EvalSpecialLines(os, f, ["%help"]) == Done([""], [WroteStdout(HelpText)])
  {
    assert ["%help"][1..] == [];
    assert RunCommand(os, f, ShowHelp) == CommandRun([WroteStdout(HelpText)], None);
    assert EvalSpecialLines(os, f, []) == Done([], []);
    assert [""] + [] == [""] && [WroteStdout(HelpText)] + [] == [WroteStdout(HelpText)];
  }
}

=== FILE: values.dfy ===
/**
 The dynamic Go values (`interface{}`) that flow between the interpreter, the
 MIME data builders and the reply contents, and the foreign calls the kernel
 makes into Go's `fmt` and `net/http` packages.
 */
module Values {
  import opened Base

  /** A Go `error`: only its message is observable. */
  datatype Error = Error(message: string)

  /** A `MIMEMap`: MIME type (or reply field) to value. Nil and empty maps are not distinguished. */
  type MimeMap = map<string, Value>

  /** A Go value of static type `interface{}`. */
  datatype Value =
    | Nil
    | Bool(b: bool)
    | Int(i: int)              // a Go `int`
    | Number(x: real)          // a JSON number, which Go decodes into a `float64`
    | Str(s: string)
    | Bytes(bytes: seq<byte>)
    | Object(fields: MimeMap)  // a `map[string]interface{}`
    | DataValue(d: Data)
    | ErrorValue(e: Error)
    | Opaque(id: nat)          // any other Go value; the model never looks inside

  /** The display payload: MIME data, its metadata, and a transient part that these builders leave nil. */
  datatype Data = Data(data: MimeMap, metadata: MimeMap, transient: MimeMap)

  /** `Data{}`. */
  const EmptyData := Data(map[], map[], map[])

  /** A computation that either returns normally or panics with a value. */
  datatype Panicking<T> = Returned(value: T) | Panic(p: Value)

  /**
   Foreign calls whose behaviour the model does not fix: `fmt.Sprint`, the `%q` and
   `%T` verbs of `fmt`, and `http.DetectContentType`.
   */
  datatype Foreign = Foreign(
    sprint: Value -> string,
    quote: string -> string,
    typeName: Value -> string,
    detectContentType: seq<byte> -> string)

  /** `content.(map[string]interface{})[key].(string)`: None where Go's type assertion would panic. */
  function StringField(content: Value, key: string): (r: Option<string>)
    ensures r.Some? <==> content.Object? && key in content.fields && content.fields[key].Str?
    ensures r.Some? ==> content.fields[key] == Str(r.value)
  {
    if content.Object? && key in content.fields && content.fields[key].Str?
    then Some(content.fields[key].s) else None
  }

  /** `content.(map[string]interface{})[key].(bool)`. */
  function BoolField(content: Value, key: string): (r: Option<bool>)
    ensures r.Some? <==> content.Object? && key in content.fields && content.fields[key].Bool?
    ensures r.Some? ==> content.fields[key] == Bool(r.value)
  {
    if content.Object? && key in content.fields && content.fields[key].Bool?
    then Some(content.fields[key].b) else None
  }

  /** `content.(map[string]interface{})[key].(float64)`. */
  function NumberField(content: Value, key: string): (r: Option<real>)
    ensures r.Some? <==> content.Object? && key in content.fields && content.fields[key].Number?
    ensures r.Some? ==> content.fields[key] == Number(r.value)
  {
    if content.Object? && key in content.fields && content.fields[key].Number?
    then Some(content.fields[key].x) else None
  }

  /** Go's `int(x)` for a `float64` in range: truncation toward zero. */
  function TruncateToInt(x: real): (n: int)
    ensures 0.0 <= x ==> n as real <= x < n as real + 1.0
    ensures x < 0.0 ==> n as real - 1.0 < x <= n as real
  {
    if 0.0 <= x then x.Floor else -((-x).Floor)
  }
}
